=== FILE: README.md ===
# Bucket lifecycle engine, modelled in Dafny

This project models the core of a client-side lifecycle engine for S3-compatible object stores. The engine reads a lifecycle configuration, which is an ordered list of rules. Each rule can carry three optional action blocks: Expiration, NoncurrentVersionExpiration and AbortIncompleteMultipartUpload. The engine applies each rule to a versioned bucket in two parts:

- a sweep of the incomplete multipart uploads;
- one pass over the object-version listing. Each page is turned into records and sorted by key and then newest first. The records are then processed one at a time by a small state machine: the last latest version seen, the current key, and a running count of noncurrent versions. The machine decides which store calls to issue.

## Modules

- `Wrappers` (`wrappers.dfy`): `Option` and `Result`.
- `Config` (`config.dfy`):
  - the rule and action-block records;
  - `Validate`, the "at least one action" check;
  - `WellFormed`, the constraints the field tags impose at load time.
- `Versions` (`versions.dfy`):
  - the `Version` record and `ToVersions`;
  - the sort order. It uses Go's `<` on strings, spelled out as `KeyLess`;
  - `SortedVersions`, a functional stable sort that serves as the specification;
  - `SortVersions`, an in-place insertion sort on an array, proved equal to `SortedVersions`.
- `Actions` (`actions.dfy`):
  - `AgeInDays`;
  - the per-record deciders `ApplyExpiration` and `ApplyNoncurrentVersionExpiration`. Each returns the store calls it issues.
- `Engine` (`engine.dfy`):
  - the multipart sweep, as a method proved against `Sweep`;
  - the delete-marker closure and the record step. The step has a function form (`Step`, `Fold`) and an imperative form (`ProcessRecord`, `StreamRecords`, `StreamListing`);
  - `ApplyRule`, proved against `RunRule`;
  - `Execute`, proved against `ExecuteRules`;
  - lemmas about stopping at the first failing rule and about which rule fields matter.
- `PerKey` (`perkey.dfy`): an independent, key-by-key reading of what one pass issues, and the theorem that the state machine computes exactly that. Records arrive as runs with one key per run, the latest record first.
- `Store` (`store.dfy`):
  - what the issued calls do to the versions of a bucket;
  - the end-to-end scenarios the repository's tests check, stated for any number of versions and any NewerNoncurrentVersions threshold.

## Modelling choices

- Time is an integer number of nanoseconds.
- The store is given as a `BucketView` value:
  - the result of the versioning query;
  - the multipart-upload pages;
  - the object-version pages.

  Each page is a `Result`. A failed page fetch is an `Err`.
- A rule run returns a `RuleRun`:
  - the store calls issued, in order, as a sequence of `Action`s;
  - an `Outcome`. The outcome is `Completed` (nil error), `Failed(e)` (the error returned), or `Exited(message)` (`log.Fatalf`, which ends the process).
- The result of a store call is not a model input. The source only logs it; no branch depends on it.
- `Execute` takes one `BucketView` per rule, because each rule observes the bucket as the earlier rules left it.
- `KeyLess` compares strings character by character, by Unicode code point. Go's `<` compares bytes. The two orders agree on valid UTF-8, which object keys are.

## Model

| member | source | states |
|---|---|---|
| Config.Validate | config/config.go:47-55 | an error is returned iff some rule has none of the three action blocks, and the error is the fixed "at least one action" message |
| Config.ValidateStopsAtFirstOffender | config/config.go:48-51 | any rule without an action block makes the whole configuration fail with that message |
| Config.ValidateEmpty | config/config.go:47-55 | an empty rule list passes |
| Config.ValidateScope | config/config.go:48-53 | only whether each rule has an action block matters to validation |
| Config.SingleEmptyBlockPasses | config/config.go:49 | the check is for presence of a block: an Expiration with no Days and the flag off passes |
| Config.WellFormedThresholds | config/config.go:11-45 | every rule of a configuration that satisfies the field tags has an alphanumeric ID of 1 to 255 characters and status Enabled or Disabled; Expiration Days, NoncurrentDays, NewerNoncurrentVersions and DaysAfterInitiation are non-negative when present, and DaysAfterInitiation is present in every abort block |
| Versions.ToVersions | cmd/bucket_lifecycle.go:27-49 | the live versions in listing order, then the delete markers in listing order, with the fields copied and the marker flag set by the list the entry came from |
| Versions.KeyLessTotal | cmd/bucket_lifecycle.go:53-56 | Go's string `<` is total |
| Versions.KeyLessTransitive | cmd/bucket_lifecycle.go:53-56 | Go's string `<` is transitive |
| Versions.KeyLessAsymmetric | cmd/bucket_lifecycle.go:53-56 | Go's string `<` is asymmetric |
| Versions.KeyLessIrreflexive | cmd/bucket_lifecycle.go:53-56 | Go's string `<` is irreflexive |
| Versions.BeforeNegTransitive | cmd/bucket_lifecycle.go:52-59 | the comparison is a strict weak order: "not before" is transitive |
| Versions.BeforeTotal | cmd/bucket_lifecycle.go:52-59 | two records neither of which comes first share key and timestamp |
| Versions.InsertOrdered | cmd/bucket_lifecycle.go:51-62 | inserting into an ordered sequence keeps it ordered |
| Versions.SortedVersionsOrdered | cmd/bucket_lifecycle.go:51-62 | the sorted records are ordered by key ascending, then newest first |
| Versions.SortedVersionsTies | cmd/bucket_lifecycle.go:52 | stability: records with equal key and timestamp keep their input order |
| Versions.OrderedTiesUnique | cmd/bucket_lifecycle.go:52 | an ordered sequence is determined by its tie groups, so a stable sort has one possible output |
| Versions.SortedVersionsOfOrdered | cmd/bucket_lifecycle.go:51-62 | sorting an ordered sequence changes nothing |
| Versions.ShuffleInvariant | cmd/bucket_lifecycle.go:51-62 | with no two records sharing key and timestamp, every permutation of the input sorts to the same output |
| Versions.InsertLast | cmd/bucket_lifecycle.go:52 | one insertion step on the array equals the functional insert, and the rest of the array is unchanged |
| Versions.SortVersions | cmd/bucket_lifecycle.go:51-62 | the array ends up holding the stable sort of its old contents |
| Versions.SortByDate | cmd/bucket_lifecycle_test.go:364-388 | three versions of one key, in any order, sort newest first |
| Versions.SortByDateAndNames | cmd/bucket_lifecycle_test.go:390-430 | six versions of two keys, in any order, sort key1 first, each key newest first |
| Actions.AgeInDays | cmd/bucket_lifecycle.go:64-66 | the elapsed time in whole days, truncated toward zero, so that `age` days ≤ elapsed < `age`+1 days |
| Actions.AgeInDaysExamples | cmd/bucket_lifecycle.go:64-66 | 0 days for the same instant and for 23 hours; 1 day for 25 hours; 0 days for a time less than a day ahead |
| Actions.AgeReaches | cmd/bucket_lifecycle.go:64-66 | what the `age >= threshold` tests mean in elapsed time, for a positive threshold and for 0 |
| Actions.AgeMonotonic | cmd/bucket_lifecycle.go:64-66 | an older record is at least as many days old |
| Actions.ApplyExpiration | cmd/bucket_lifecycle.go:91-104 | reports true iff there is a Days threshold, the record is the latest, it is not a marker and it is old enough; exactly then one unversioned delete of the key is issued |
| Actions.NoncurrentTrigger | cmd/bucket_lifecycle.go:106-124 | which branch fires: NoncurrentDays first; the count test only when the days test fails |
| Actions.ApplyNoncurrentVersionExpiration | cmd/bucket_lifecycle.go:106-124 | at most one version-scoped delete of the record itself, issued iff either threshold is reached; IsLatest is not consulted |
| Actions.NoncurrentMonotonic | cmd/bucket_lifecycle.go:115 | a larger running count never switches a firing deletion off |
| Engine.OkPrefixFrom | cmd/bucket_lifecycle.go:71-75 | fetching one more page: an error page ends the listing with that error, an ok page contributes its uploads |
| Engine.AbortsForAppend | cmd/bucket_lifecycle.go:77-85 | the aborts of two consecutive batches of uploads are the aborts of each batch, in order |
| Engine.AbortStale | cmd/bucket_lifecycle.go:77-85 | the aborts issued for one page are those of the uploads at least DaysAfterInitiation old, in listing order |
| Engine.ApplyAbortIncompleteMultipartUpload | cmd/bucket_lifecycle.go:68-89 | nothing without an abort block; otherwise the aborts for every page fetched before the first failing page, and that page's error |
| Engine.ExpireObjectDeleteMarker | cmd/bucket_lifecycle.go:140-152 | at most one version-scoped delete of the remembered latest record, issued iff the flag is set, that record is a latest delete marker, the incoming record is absent or has another key, and the count is 0 |
| Engine.ProcessRecord | cmd/bucket_lifecycle.go:167-188 | the loop body: marker check, reset on a key change, latest tracking, counting, expiration (which counts one more), then the noncurrent test with the updated count |
| Engine.StreamRecords | cmd/bucket_lifecycle.go:167-188 | the record loop over one sorted page computes the fold of the step |
| Engine.SortedPage | cmd/bucket_lifecycle.go:165 | each page's records are built and sorted independently |
| Engine.StreamListing | cmd/bucket_lifecycle.go:158-189 | the page loop: the fold of the step over the sorted records of every page before the first failing page, and that page's error |
| Engine.FoldAppend | cmd/bucket_lifecycle.go:159-189 | the state carries over from one page to the next: processing two batches is processing one then the other |
| Engine.FoldCons | cmd/bucket_lifecycle.go:167-188 | one record, then the rest |
| Engine.FoldSnoc | cmd/bucket_lifecycle.go:167-188 | the records so far, then one more |
| Engine.ApplyRule | cmd/bucket_lifecycle.go:126-193 | a failed versioning query is returned; any status other than Enabled ends the process with "`bucket` is not a versioned bucket"; a failed sweep is returned; a failed page is returned after the calls already made; otherwise the final marker check runs with no incoming record and the run completes |
| Engine.AsWrittenDiffersOnlyOnSweepError | cmd/bucket_lifecycle.go:154-156 | the source's rule run and the corrected one differ exactly when the bucket is versioned and the sweep fails |
| Engine.SweepErrorSwallowed | cmd/bucket_lifecycle.go:154-156 | a concrete bucket whose upload listing fails: the source reports success and skips the version pass; the corrected run reports the error |
| Engine.RunRuleAsWritten | cmd/bucket_lifecycle.go:126-193 | the source's rule run, with the sweep error at lines 154-156 swallowed: it exits exactly on an unversioned bucket, and a failure it reports is always the versioning query's error or the first failing version page's, never the sweep's |
| Engine.AsWrittenAbortsFirst | cmd/bucket_lifecycle.go:154-156 | on a versioned bucket the source's rule run issues the sweep's aborts before anything else, whether or not the sweep fails |
| Engine.ExecuteRulesAsWritten | cmd/bucket_lifecycle.go:224-235 | the source's loop over those rule runs: it completes iff every as-written rule run completes, and a failure it reports is the versioning or version-page error of some rule |
| Engine.ExecuteAsWrittenAgrees | cmd/bucket_lifecycle.go:224-235 | with the sweep error at cmd/bucket_lifecycle.go:154-156 swallowed or not: when no versioned rule's sweep fails, Execute as written and the corrected Execute give the same calls and outcome |
| Engine.ExecuteAsWrittenContinues | cmd/bucket_lifecycle.go:224-235 | when rule i's sweep fails and the earlier rules complete, the corrected run of rule i fails with the sweep's error, while Execute as written keeps rule i's abort calls and goes on with the rules after i, because cmd/bucket_lifecycle.go:154-156 returns nil |
| Engine.SweepErrorSkipsToNextRule | cmd/bucket_lifecycle.go:224-235 | two rules: the first one's upload listing fails with "boom", and the second expires the one live key1 at 0 days. Execute as written completes with the deletion of key1; the corrected Execute fails with "boom" and issues nothing |
| Engine.Execute | cmd/bucket_lifecycle.go:224-235 | the rules run in order; the calls accumulate; the first rule that does not complete ends the loop with its outcome |
| Engine.ChainCompletes | cmd/bucket_lifecycle.go:226-233 | a sequence of rule runs completes iff each of them completes |
| Engine.ExecuteCompletes | cmd/bucket_lifecycle.go:224-235 | Execute completes iff every rule's run completes |
| Engine.ExecuteStopsAt | cmd/bucket_lifecycle.go:227-230 | when rule i is the first to fail, the result is the calls of rules before i, then rule i's calls and outcome; later rules do nothing |
| Engine.RunRuleScope | cmd/bucket_lifecycle.go:126-193 | a rule's run depends only on its three action blocks; ID, Status and Filter are not consulted |
| Engine.ExecuteScope | cmd/bucket_lifecycle.go:224-235 | the same for the whole configuration |
| PerKey.TailFold | cmd/bucket_lifecycle.go:170-187 | the noncurrent records of the current key: each adds one to the count, and only the noncurrent test applies to it |
| PerKey.HeadStep | cmd/bucket_lifecycle.go:168-187 | the latest record of a new key: the previous key's marker check, the count reset, and the expiration then noncurrent test for the record itself |
| PerKey.RunFold | cmd/bucket_lifecycle.go:167-188 | a whole key run: its calls and the state it leaves |
| PerKey.LeaveRun | cmd/bucket_lifecycle.go:140-152 | leaving a run, the marker check fires iff the flag is set and the run is a lone latest delete marker |
| PerKey.RunsFold | cmd/bucket_lifecycle.go:159-190 | any number of key runs: the engine's calls, with the final marker check, are the concatenation of each run's calls |
| PerKey.PassByKey | cmd/bucket_lifecycle.go:136-190 | from the initial state, the version pass issues exactly the key-by-key reference calls |
| PerKey.RunRuleByKey | cmd/bucket_lifecycle.go:126-193 | a completed rule run issues the sweep's aborts, then the key-by-key calls |
| PerKey.NewerNoncurrentKeeps | cmd/bucket_lifecycle.go:115-121 | with only NewerNoncurrentVersions = n, counting from the given start, the records whose count exceeds n are deleted and the earlier ones are kept |
| PerKey.NoncurrentAllDeleted | cmd/bucket_lifecycle.go:107-121 | once the count exceeds the threshold, or every record is NoncurrentDays old, every record is deleted |
| PerKey.NoNoncurrentBlock | cmd/bucket_lifecycle.go:107 | without the block nothing is deleted as noncurrent |
| PerKey.NoncurrentNoneDue | cmd/bucket_lifecycle.go:107-115 | a NoncurrentDays threshold that no record reaches, and no count threshold: nothing is deleted |
| Store.FreshRunCalls | cmd/bucket_lifecycle.go:91-124 | what the tests' rules issue for a key written less than a day ago: an unversioned delete, then deletions of all versions after the first `keep` |
| Store.NewerNoncurrentScenario | cmd/bucket_lifecycle_test.go:179-252 | Expiration Days 0 with NewerNoncurrentVersions = keep: one key ends with a delete marker on top of its `keep` newest versions, so 1 + min(keep, n) versions are listed |
| Store.NoncurrentDaysZeroScenario | cmd/bucket_lifecycle_test.go:254-278 | Expiration Days 0 with NoncurrentDays 0: only the new delete marker is left |
| Store.NoncurrentDaysOneScenario | cmd/bucket_lifecycle_test.go:297-307 | Expiration Days 0 with NoncurrentDays 1: the marker on top and every version kept |
| Store.ExpirationZeroScenario | cmd/bucket_lifecycle_test.go:144-167 | Expiration Days 0: the marker on top and every version kept, so n + 1 versions are listed |
| Store.ExpirationOneScenario | cmd/bucket_lifecycle_test.go:169-177 | Expiration Days 1 on a fresh key: nothing is issued and the run completes |
| Store.TwoKeysScenario | cmd/bucket_lifecycle_test.go:205-220 | two keys are handled independently: each ends with its own marker and its `keep` newest versions (NoncurrentDays 0 is keep 0; lines 280-295) |
| Store.LoneMarkerScenario | cmd/bucket_lifecycle_test.go:309-335 | a key that is only a latest delete marker, under an Expiration block with any Days: with ExpiredObjectDeleteMarker it is removed and nothing is left; without it the marker stays |
| Store.AllUploadsDue | cmd/bucket_lifecycle.go:77-85 | when every upload is old enough, each one is aborted |
| Store.NoUploadDue | cmd/bucket_lifecycle.go:77-85 | when no upload is old enough, nothing is aborted |
| Store.FreshUploadsScenario | cmd/bucket_lifecycle.go:77-85 | uploads started less than a day ago: DaysAfterInitiation 0 aborts them all and DaysAfterInitiation 1 aborts none. This follows the code; the matching test assertions in cmd/bucket_lifecycle_test.go are commented out |

## Findings

| source | as written | input that shows it | evidently intended | confidence | as-written member | corrected member |
|---|---|---|---|---|---|---|
| cmd/bucket_lifecycle.go:154-156 | when the multipart sweep fails, `applyRule` returns the variable `err`, which still holds the nil error of the versioning query, so the failure is reported as success and the version pass is skipped | a versioned bucket, a rule with AbortIncompleteMultipartUpload, and an upload listing whose first page fails | return the sweep's error, as every other failing call in the function does | not executed | Engine.RunRuleAsWritten, Engine.SweepErrorSwallowed, Engine.ExecuteRulesAsWritten, Engine.ExecuteAsWrittenContinues, Engine.SweepErrorSkipsToNextRule | Engine.RunRule, Engine.ApplyRule, Engine.ExecuteRules, Engine.Execute |

`ApplyRule` and `Execute` use the corrected behaviour. `AsWrittenDiffersOnlyOnSweepError` shows that the two readings of a rule run agree on every other input, and `ExecuteAsWrittenAgrees` shows the same for the whole loop. Because the source reports a failed sweep as success, `Execute` as written goes on to the next rule (`ExecuteAsWrittenContinues`). `SweepErrorSkipsToNextRule` gives an example: the first rule's upload listing fails, and the second rule then expires a key, where the corrected loop stops with the error.

## Left out

- S3 I/O is not modelled. The paginators, the versioning query and the listings are replaced by the `BucketView` value, page by page. Store call failures are only logged, so they are not modelled. The log lines are left out.
- `time.Now()` becomes the parameter `now`, one instant for the whole Execute. The source reads the clock again for every record and every upload.
- Actions.AgeInDays: the source divides the float64 `Hours()` by 24 and truncates. The model uses exact integer division of nanoseconds, so float rounding near a day boundary is not modelled.
- Actions.AgeInDays: `time.Duration` saturates for spans beyond about 292 years. The model's integers do not.
- Engine.ApplyAbortIncompleteMultipartUpload: an abort block without DaysAfterInitiation makes the source dereference nil. The model excludes this case by its `AbortDaysPresent` precondition, because the field tags require the value at load time.
- Engine.ApplyRule: a GetBucketVersioning status other than "Enabled" ends the whole process. It is modelled as the `Exited` outcome, and `Execute` stops there.
- Filter is carried in the rule record but is not evaluated, just as the engine does not evaluate it.
- LoadConfig (JSON decoding, the validator library, file I/O) is not modelled. The validator's field tags are stated as `Config.WellFormed`, and `Config.Validate` is modelled.
- A nil rule list and an empty rule list are the same empty sequence.
- cmd/root.go (the command line) and sos/sos.go (client construction) are not part of this model.
- Store scenarios: the test configuration files are not part of this model. The rules are taken from the test names and assertions: Expiration Days 0 together with the noncurrent block under test.
- Store scenarios: the store is modelled only as far as the scenarios need. An unversioned delete puts a new delete marker in front. A version-scoped delete removes that version. An abort leaves the versions alone.
- PerKey.RunRuleByKey: it requires that the records arrive as runs of one key each, the latest version first, and that consecutive runs differ in key. A sorted listing of a consistent bucket has this shape. The condition is on the whole record stream, so a key split across two listing pages is covered. Two cases are handled only by the general `Engine.RunRule`. One is a key with no latest version. The other is a key whose latest record is not first in its run. This happens when a latest delete marker and a live version of the key share LastModified: the stable sort keeps the live version, which was listed first, ahead of the marker.

=== FILE: actions.dfy ===
/**
 * Ages in whole days and the per-record deciders: which store call, if any,
 * the expiration and noncurrent-version-expiration actions issue for one record.
 */
module Actions {
  import opened Wrappers
  import opened Config
  import opened Versions

  /** One hour and one day in nanoseconds. */
  const NanosPerHour: int := 3_600_000_000_000
  const NanosPerDay: int := 86_400_000_000_000

  /** A call the engine makes to the store. Call failures are only logged. */
  datatype Action =
    | DeleteVersion(key: string, versionId: string)   // version-scoped delete
    | DeleteCurrent(key: string)                      // unversioned delete: the store writes a delete marker
    | AbortUpload(key: string, uploadId: string)      // abort of a multipart upload

  /**
   * AgeInDays: the elapsed time from lastModified to now in whole days,
   * truncated toward zero (so a record from the near future is 0 days old).
   */
  function AgeInDays(now: int, lastModified: int): (age: int)
    ensures now - lastModified >= 0 ==>
      age * NanosPerDay <= now - lastModified < (age + 1) * NanosPerDay
    ensures now - lastModified < 0 ==>
      (age - 1) * NanosPerDay < now - lastModified <= age * NanosPerDay
  {
    var elapsed := now - lastModified;
    if elapsed >= 0 then elapsed / NanosPerDay else -((-elapsed) / NanosPerDay)
  }

  /** The test expectations: the same instant, 23 hours and 25 hours ago, and less than a day ahead. */
  lemma AgeInDaysExamples(t: int, ahead: int)
    requires 0 < ahead < NanosPerDay
    ensures AgeInDays(t, t) == 0
    ensures AgeInDays(t, t - 23 * NanosPerHour) == 0
    ensures AgeInDays(t, t - 25 * NanosPerHour) == 1
    ensures AgeInDays(t, t + ahead) == 0
  {
  }

  /**
   * What the inclusive comparison `age >= threshold` means in elapsed time:
   * at least `days` whole days for a positive threshold, and anything less
   * than a day in the future for a threshold of 0.
   */
  lemma AgeReaches(now: int, lastModified: int, days: int)
    ensures days > 0 ==> (AgeInDays(now, lastModified) >= days <==> now - lastModified >= days * NanosPerDay)
    ensures days == 0 ==> (AgeInDays(now, lastModified) >= 0 <==> now - lastModified > -NanosPerDay)
  {
    var age := AgeInDays(now, lastModified);
    if days > 0 && age >= days {
      assert age * NanosPerDay >= days * NanosPerDay;
    }
    if days > 0 && age < days && now - lastModified >= 0 {
      assert (age + 1) * NanosPerDay <= days * NanosPerDay;
    }
  }

  /** An older record is at least as old. */
  lemma AgeMonotonic(now: int, older: int, newer: int)
    requires older <= newer
    ensures AgeInDays(now, older) >= AgeInDays(now, newer)
  {
  }

  /**
   * applyExpiration: when the rule has an Expiration with Days and the record
   * is the latest live version at least Days old, issue one unversioned
   * delete and report true (whether or not the call succeeds).
   */
  function ApplyExpiration(rule: Rule, v: Version, age: int): (r: (bool, seq<Action>))
    ensures r.0 <==> && rule.expiration.Some? && rule.expiration.value.days.Some?
                     && v.isLatest && !v.deleteMarker
                     && age >= rule.expiration.value.days.value
    ensures r.1 == if r.0 then [DeleteCurrent(v.key)] else []
  {
    if rule.expiration.Some? && rule.expiration.value.days.Some? && v.isLatest && !v.deleteMarker then
      if age >= rule.expiration.value.days.value then (true, [DeleteCurrent(v.key)]) else (false, [])
    else (false, [])
  }

  /** Why a noncurrent-version expiration fires; the two log lines differ. */
  datatype NoncurrentReason = NoncurrentDaysElapsed | TooManyNewerVersions

  /**
   * The guard of applyNoncurrentVersionExpiration: the NoncurrentDays test
   * first, the NewerNoncurrentVersions test only when the first fails.
   * Neither looks at IsLatest.
   */
  function NoncurrentTrigger(rule: Rule, age: int, nbVersions: int): (r: Option<NoncurrentReason>)
    ensures r == Some(NoncurrentDaysElapsed) <==>
      && rule.noncurrentVersionExpiration.Some?
      && rule.noncurrentVersionExpiration.value.noncurrentDays.Some?
      && age >= rule.noncurrentVersionExpiration.value.noncurrentDays.value
    ensures r == Some(TooManyNewerVersions) <==>
      && rule.noncurrentVersionExpiration.Some?
      && !(rule.noncurrentVersionExpiration.value.noncurrentDays.Some? &&
           age >= rule.noncurrentVersionExpiration.value.noncurrentDays.value)
      && rule.noncurrentVersionExpiration.value.newerNoncurrentVersions.Some?
      && nbVersions > rule.noncurrentVersionExpiration.value.newerNoncurrentVersions.value
  {
    if rule.noncurrentVersionExpiration.None? then None
    else
      var nve := rule.noncurrentVersionExpiration.value;
      if nve.noncurrentDays.Some? && age >= nve.noncurrentDays.value then Some(NoncurrentDaysElapsed)
      else if nve.newerNoncurrentVersions.Some? && nbVersions > nve.newerNoncurrentVersions.value then Some(TooManyNewerVersions)
      else None
  }

  /**
   * applyNoncurrentVersionExpiration: at most one version-scoped delete of
   * the record itself, issued when either threshold is reached.
   */
  function ApplyNoncurrentVersionExpiration(rule: Rule, v: Version, age: int, nbVersions: int): (r: seq<Action>)
    ensures r == [] || r == [DeleteVersion(v.key, v.versionId)]
    ensures r != [] <==>
      && rule.noncurrentVersionExpiration.Some?
      && ((rule.noncurrentVersionExpiration.value.noncurrentDays.Some? &&
           age >= rule.noncurrentVersionExpiration.value.noncurrentDays.value)
          || (rule.noncurrentVersionExpiration.value.newerNoncurrentVersions.Some? &&
              nbVersions > rule.noncurrentVersionExpiration.value.newerNoncurrentVersions.value))
  {
    if NoncurrentTrigger(rule, age, nbVersions).Some? then [DeleteVersion(v.key, v.versionId)] else []
  }

  /** A larger running count never turns a firing noncurrent expiration off. */
  lemma NoncurrentMonotonic(rule: Rule, v: Version, age: int, nb: int, nb': int)
    requires nb <= nb'
    ensures ApplyNoncurrentVersionExpiration(rule, v, age, nb) != [] ==>
            ApplyNoncurrentVersionExpiration(rule, v, age, nb') != []
  {
  }
}

=== FILE: config.dfy ===
/**
 * The bucket-lifecycle configuration: rules made of optional action blocks,
 * the constraints the loader's field tags place on them, and the
 * "at least one action per rule" check.
 */
module Config {
  import opened Wrappers

  /** A prefix or object-size filter; the engine never consults it. */
  datatype Filter = Filter(
    prefix: Option<string>,
    objectSizeGreaterThan: Option<int>,
    objectSizeLessThan: Option<int>,
    and: Option<AndFilter>)

  datatype AndFilter = AndFilter(
    prefix: Option<string>,
    objectSizeGreaterThan: Option<int>,
    objectSizeLessThan: Option<int>)

  /** Expire the current version after `days`; optionally clean up lone delete markers. */
  datatype Expiration = Expiration(days: Option<int>, expiredObjectDeleteMarker: bool)

  /** Expire noncurrent versions by age, or beyond a number of newer noncurrent versions. */
  datatype NoncurrentVersionExpiration = NoncurrentVersionExpiration(
    noncurrentDays: Option<int>,
    newerNoncurrentVersions: Option<int>)

  /** Abort multipart uploads initiated at least `daysAfterInitiation` days ago. */
  datatype AbortIncompleteMultipartUpload = AbortIncompleteMultipartUpload(daysAfterInitiation: Option<int>)

  datatype Rule = Rule(
    id: string,
    status: string,
    filter: Option<Filter>,
    expiration: Option<Expiration>,
    noncurrentVersionExpiration: Option<NoncurrentVersionExpiration>,
    abortIncompleteMultipartUpload: Option<AbortIncompleteMultipartUpload>)

  datatype BucketLifecycleConfiguration = BucketLifecycleConfiguration(rules: seq<Rule>)

  const ActionRequired: string := "at least one action needs to be specified in a rule"

  /** The rule carries at least one of the three action blocks (their contents do not matter). */
  predicate HasAction(rule: Rule) {
    || rule.abortIncompleteMultipartUpload.Some?
    || rule.expiration.Some?
    || rule.noncurrentVersionExpiration.Some?
  }

  /**
   * Validate: walks the rules in order and reports the fixed message at the
   * first rule without any action block; None stands for a nil error.
   */
  function Validate(blc: BucketLifecycleConfiguration): (err: Option<string>)
    ensures err.Some? <==> exists i :: 0 <= i < |blc.rules| && !HasAction(blc.rules[i])
    ensures err.Some? ==> err.value == ActionRequired
    decreases |blc.rules|
  {
    if |blc.rules| == 0 then None
    else if !HasAction(blc.rules[0]) then Some(ActionRequired)
    else
      var rest := Validate(BucketLifecycleConfiguration(blc.rules[1..]));
      assert forall i :: 1 <= i < |blc.rules| ==> blc.rules[i] == blc.rules[1..][i - 1];
      rest
  }

  /** Validate reports the error as soon as it meets a rule without actions, whatever follows. */
  lemma {:induction false} ValidateStopsAtFirstOffender(blc: BucketLifecycleConfiguration, i: nat)
    requires i < |blc.rules| && !HasAction(blc.rules[i])
    ensures Validate(blc) == Some(ActionRequired)
  {
    assert exists j :: 0 <= j < |blc.rules| && !HasAction(blc.rules[j]);
  }

  /** An empty rule list validates. */
  lemma ValidateEmpty()
    ensures Validate(BucketLifecycleConfiguration([])) == None
  {
  }

  /**
   * The verdict depends only on which action blocks are present: IDs, status,
   * filters and the blocks' inner fields play no part.
   */
  lemma {:induction false} ValidateScope(a: BucketLifecycleConfiguration, b: BucketLifecycleConfiguration)
    requires |a.rules| == |b.rules|
    requires forall i :: 0 <= i < |a.rules| ==> HasAction(a.rules[i]) == HasAction(b.rules[i])
    ensures Validate(a) == Validate(b)
  {
    if Validate(a).Some? {
      var i :| 0 <= i < |a.rules| && !HasAction(a.rules[i]);
      ValidateStopsAtFirstOffender(b, i);
    }
  }

  /** A rule with one action block passes, even when the block's own fields are all absent. */
  lemma SingleEmptyBlockPasses(id: string, status: string)
    ensures Validate(BucketLifecycleConfiguration([Rule(id, status, None, Some(Expiration(None, false)), None, None)])) == None
  {
  }

  /** The validator's `alphanum`: ASCII letters and digits only. */
  predicate IsAlphanumeric(s: string) {
    forall i :: 0 <= i < |s| ==> ('a' <= s[i] <= 'z' || 'A' <= s[i] <= 'Z' || '0' <= s[i] <= '9')
  }

  predicate NonNegativeIfPresent(n: Option<int>) {
    n.Some? ==> n.value >= 0
  }

  /**
   * The part of well-formedness the engine itself relies on: a present abort
   * block has its threshold (the engine dereferences it).
   */
  predicate AbortDaysPresent(rule: Rule) {
    rule.abortIncompleteMultipartUpload.Some? ==> rule.abortIncompleteMultipartUpload.value.daysAfterInitiation.Some?
  }

  /** The constraints that the field tags of a Rule impose at load time. */
  predicate RuleWellFormed(rule: Rule) {
    && 0 < |rule.id| <= 255
    && IsAlphanumeric(rule.id)
    && (rule.status == "Enabled" || rule.status == "Disabled")
    && (rule.expiration.Some? ==> NonNegativeIfPresent(rule.expiration.value.days))
    && (rule.noncurrentVersionExpiration.Some? ==>
          && NonNegativeIfPresent(rule.noncurrentVersionExpiration.value.noncurrentDays)
          && NonNegativeIfPresent(rule.noncurrentVersionExpiration.value.newerNoncurrentVersions))
    && AbortDaysPresent(rule)
    && (rule.abortIncompleteMultipartUpload.Some? ==>
          rule.abortIncompleteMultipartUpload.value.daysAfterInitiation.value >= 0)
  }

  /** The tag constraints, applied to every rule of the configuration. */
  predicate WellFormed(blc: BucketLifecycleConfiguration) {
    forall i :: 0 <= i < |blc.rules| ==> RuleWellFormed(blc.rules[i])
  }

  /**
   * What loading guarantees about each rule: a non-empty alphanumeric ID of at
   * most 255 characters, a known status, every present threshold non-negative,
   * and the abort block's threshold present.
   */
  lemma WellFormedThresholds(blc: BucketLifecycleConfiguration, i: nat)
    requires WellFormed(blc) && i < |blc.rules|
    ensures 0 < |blc.rules[i].id| <= 255 && IsAlphanumeric(blc.rules[i].id)
    ensures blc.rules[i].status in {"Enabled", "Disabled"}
    ensures blc.rules[i].expiration.Some? && blc.rules[i].expiration.value.days.Some? ==>
      blc.rules[i].expiration.value.days.value >= 0
    ensures blc.rules[i].noncurrentVersionExpiration.Some? &&
            blc.rules[i].noncurrentVersionExpiration.value.noncurrentDays.Some? ==>
      blc.rules[i].noncurrentVersionExpiration.value.noncurrentDays.value >= 0
    ensures blc.rules[i].noncurrentVersionExpiration.Some? &&
            blc.rules[i].noncurrentVersionExpiration.value.newerNoncurrentVersions.Some? ==>
      blc.rules[i].noncurrentVersionExpiration.value.newerNoncurrentVersions.value >= 0
    ensures AbortDaysPresent(blc.rules[i])
    ensures blc.rules[i].abortIncompleteMultipartUpload.Some? ==>
      blc.rules[i].abortIncompleteMultipartUpload.value.daysAfterInitiation.value >= 0
  {
  }
}

=== FILE: engine.dfy ===
/**
 * The rule-evaluation engine: the multipart-upload sweep, the streaming pass
 * over the version listing with its cross-record state, and the execution of
 * the rules in order. Store calls are recorded in a call log; the listings a
 * rule observes are given as a BucketView.
 */
module Engine {
  import opened Wrappers
  import opened Config
  import opened Versions
  import opened Actions

  /** The state applyRule's closure captures: previousLatest, currentKey and nbVersions. */
  datatype State = State(previousLatest: Version, currentKey: string, nbVersions: int)

  /** Go's zero values: an empty Version, no current key, a zero count. */
  const ZeroVersion: Version := Version("", false, 0, "", false)
  const Initial: State := State(ZeroVersion, "", 0)

  /** An in-progress multipart upload as the listing returns it; `initiated` in nanoseconds. */
  datatype MultipartUpload = MultipartUpload(key: string, uploadId: string, initiated: int)

  /** What one rule observes of the bucket: each listing is a sequence of page fetches. */
  datatype BucketView = BucketView(
    versioning: Result<string>,
    uploads: seq<Result<seq<MultipartUpload>>>,
    versions: seq<Result<ListObjectVersionsOutput>>)

  /** How a rule, or the whole run, ends: nil error, a returned error, or process exit. */
  datatype Outcome = Completed | Failed(error: string) | Exited(message: string)

  /** The calls issued, in order, and how the run ended. */
  datatype RuleRun = RuleRun(calls: seq<Action>, outcome: Outcome)

  /** The state after some records, and the calls they issued. */
  datatype Pass = Pass(state: State, calls: seq<Action>)

  // ----- Listings -----

  /** The pages fetched before the first listing error. */
  function OkPrefix<T>(pages: seq<Result<T>>): seq<T> {
    if pages == [] || pages[0].Err? then [] else [pages[0].value] + OkPrefix(pages[1..])
  }

  /** The first listing error, if a page fetch fails. */
  function FirstError<T>(pages: seq<Result<T>>): Option<string> {
    if pages == [] then None
    else if pages[0].Err? then Some(pages[0].error)
    else FirstError(pages[1..])
  }

  /** Peeling the next page off the pages still to fetch. */
  lemma OkPrefixFrom<T>(pages: seq<Result<T>>, p: nat)
    requires p < |pages|
    ensures pages[p].Err? ==> OkPrefix(pages[p..]) == [] && FirstError(pages[p..]) == Some(pages[p].error)
    ensures pages[p].Ok? ==>
      && OkPrefix(pages[p..]) == [pages[p].value] + OkPrefix(pages[p + 1..])
      && FirstError(pages[p..]) == FirstError(pages[p + 1..])
  {
    assert pages[p..][0] == pages[p] && pages[p..][1..] == pages[p + 1..];
  }

  /** The concatenation of a sequence of pages' contents, in order. */
  function Flatten<T>(xss: seq<seq<T>>): seq<T> {
    if xss == [] then [] else xss[0] + Flatten(xss[1..])
  }

  lemma FlattenCons<T>(xs: seq<T>, xss: seq<seq<T>>)
    ensures Flatten([xs] + xss) == xs + Flatten(xss)
  {
    assert ([xs] + xss)[1..] == xss;
  }

  /** The records the pass streams: each page normalised and sorted on its own, pages in order. */
  function Stream(outputs: seq<ListObjectVersionsOutput>): seq<Version> {
    if outputs == [] then []
    else SortedVersions(VersionsOf(outputs[0])) + Stream(outputs[1..])
  }

  lemma StreamCons(output: ListObjectVersionsOutput, outputs: seq<ListObjectVersionsOutput>)
    ensures Stream([output] + outputs) == SortedVersions(VersionsOf(output)) + Stream(outputs)
  {
    assert ([output] + outputs)[1..] == outputs;
  }

  lemma AppendAssociative<T>(a: seq<T>, b: seq<T>, c: seq<T>)
    ensures a + (b + c) == (a + b) + c
  {
  }

  // ----- The multipart-upload sweep -----

  /** Aborts of the uploads at least `days` days old, in listing order. */
  function AbortsFor(days: int, now: int, uploads: seq<MultipartUpload>): seq<Action> {
    if uploads == [] then []
    else
      var u := uploads[|uploads| - 1];
      AbortsFor(days, now, uploads[..|uploads| - 1])
      + (if AgeInDays(now, u.initiated) >= days then [AbortUpload(u.key, u.uploadId)] else [])
  }

  /** The sweep: nothing without an abort block; otherwise the aborts of the pages fetched and the listing error. */
  function Sweep(rule: Rule, now: int, pages: seq<Result<seq<MultipartUpload>>>): (seq<Action>, Option<string>)
    requires AbortDaysPresent(rule)
  {
    if rule.abortIncompleteMultipartUpload.None? then ([], None)
    else
      var days := rule.abortIncompleteMultipartUpload.value.daysAfterInitiation.value;
      (AbortsFor(days, now, Flatten(OkPrefix(pages))), FirstError(pages))
  }

  lemma AbortsForSnoc(days: int, now: int, uploads: seq<MultipartUpload>, u: MultipartUpload)
    ensures AbortsFor(days, now, uploads + [u]) == AbortsFor(days, now, uploads)
      + (if AgeInDays(now, u.initiated) >= days then [AbortUpload(u.key, u.uploadId)] else [])
  {
    assert (uploads + [u])[..|uploads|] == uploads;
  }

  /** Aborts for a run of uploads that are appended to those already swept. */
  lemma {:induction false} AbortsForAppend(days: int, now: int, a: seq<MultipartUpload>, b: seq<MultipartUpload>)
    ensures AbortsFor(days, now, a + b) == AbortsFor(days, now, a) + AbortsFor(days, now, b)
    decreases |b|
  {
    if b == [] {
      assert a + b == a;
    } else {
      var init := b[..|b| - 1];
      var u := b[|b| - 1];
      assert b == init + [u];
      assert a + b == (a + init) + [u];
      AbortsForAppend(days, now, a, init);
      AbortsForSnoc(days, now, a + init, u);
      AbortsForSnoc(days, now, init, u);
    }
  }

  /** A failed page fetch: nothing more is aborted and its error is the sweep's. */
  lemma SweepStops(days: int, now: int, pages: seq<Result<seq<MultipartUpload>>>, p: nat)
    requires p < |pages| && pages[p].Err?
    ensures AbortsFor(days, now, Flatten(OkPrefix(pages[p..]))) == []
    ensures FirstError(pages[p..]) == Some(pages[p].error)
  {
    OkPrefixFrom(pages, p);
  }

  /** A fetched page: its aborts come before those of the pages after it. */
  lemma SweepPage(days: int, now: int, pages: seq<Result<seq<MultipartUpload>>>, p: nat)
    requires p < |pages| && pages[p].Ok?
    ensures AbortsFor(days, now, Flatten(OkPrefix(pages[p..]))) ==
      AbortsFor(days, now, pages[p].value) + AbortsFor(days, now, Flatten(OkPrefix(pages[p + 1..])))
    ensures FirstError(pages[p..]) == FirstError(pages[p + 1..])
  {
    OkPrefixFrom(pages, p);
    FlattenCons(pages[p].value, OkPrefix(pages[p + 1..]));
    AbortsForAppend(days, now, pages[p].value, Flatten(OkPrefix(pages[p + 1..])));
  }

  /** The upload loop over one listing page. */
  method AbortStale(days: int, now: int, uploads: seq<MultipartUpload>) returns (calls: seq<Action>)
    ensures calls == AbortsFor(days, now, uploads)
  {
    calls := [];
    for i := 0 to |uploads|
      invariant calls == AbortsFor(days, now, uploads[..i])
    {
      var upload := uploads[i];
      if AgeInDays(now, upload.initiated) >= days {
        calls := calls + [AbortUpload(upload.key, upload.uploadId)];
      }
      assert uploads[..i + 1] == uploads[..i] + [upload];
      AbortsForSnoc(days, now, uploads[..i], upload);
    }
    assert uploads[..|uploads|] == uploads;
  }

  /**
   * applyAbortIncompleteMultipartUpload: page by page, abort every listed
   * upload at least DaysAfterInitiation days old; a failed abort is only
   * logged, a failed page fetch ends the sweep with that error.
   */
  method ApplyAbortIncompleteMultipartUpload(rule: Rule, now: int, pages: seq<Result<seq<MultipartUpload>>>)
    returns (calls: seq<Action>, err: Option<string>)
    requires AbortDaysPresent(rule)
    ensures (calls, err) == Sweep(rule, now, pages)
  {
    calls, err := [], None;
    if rule.abortIncompleteMultipartUpload.Some? {
      var days := rule.abortIncompleteMultipartUpload.value.daysAfterInitiation.value;
      var p := 0;
      assert pages[p..] == pages;
      while p < |pages|
        invariant 0 <= p <= |pages|
        invariant AbortsFor(days, now, Flatten(OkPrefix(pages))) == calls + AbortsFor(days, now, Flatten(OkPrefix(pages[p..])))
        invariant FirstError(pages) == FirstError(pages[p..])
      {
        if pages[p].Err? {
          SweepStops(days, now, pages, p);
          assert calls == calls + [];
          err := Some(pages[p].error);
          return;
        }
        var aborts := AbortStale(days, now, pages[p].value);
        SweepPage(days, now, pages, p);
        AppendAssociative(calls, aborts, AbortsFor(days, now, Flatten(OkPrefix(pages[p + 1..]))));
        calls := calls + aborts;
        p := p + 1;
      }
      assert pages[p..] == [];
      assert AbortsFor(days, now, Flatten(OkPrefix(pages[p..]))) == [];
      assert calls == calls + [];
    }
  }

  // ----- The streaming pass over the version listing -----

  /**
   * expireObjectDeleteMarker: a version-scoped delete of previousLatest when
   * the rule asks for delete-marker cleanup, previousLatest is a latest
   * delete marker, the incoming record (None after the last page) belongs to
   * another key, and no other version of the marker's key was counted.
   */
  function ExpireObjectDeleteMarker(rule: Rule, st: State, next: Option<Version>): (r: seq<Action>)
    ensures r == [] || r == [DeleteVersion(st.previousLatest.key, st.previousLatest.versionId)]
    ensures r != [] <==>
      && rule.expiration.Some? && rule.expiration.value.expiredObjectDeleteMarker
      && st.previousLatest.deleteMarker && st.previousLatest.isLatest
      && (next.None? || next.value.key != st.previousLatest.key)
      && st.nbVersions == 0
  {
    if && rule.expiration.Some? && rule.expiration.value.expiredObjectDeleteMarker
       && st.previousLatest.deleteMarker && st.previousLatest.isLatest
       && (next.None? || next.value.key != st.previousLatest.key)
       && st.nbVersions == 0
    then [DeleteVersion(st.previousLatest.key, st.previousLatest.versionId)]
    else []
  }

  /** One iteration of the record loop, in the source's order. */
  function Step(rule: Rule, now: int, st: State, v: Version): Pass {
    var marker := ExpireObjectDeleteMarker(rule, st, Some(v));
    var reset := if st.currentKey != "" && v.key != st.currentKey then 0 else st.nbVersions;
    var latest := if v.isLatest then v else st.previousLatest;
    var counted := if st.currentKey != "" && v.key == st.currentKey && !v.isLatest then reset + 1 else reset;
    var age := AgeInDays(now, v.lastModified);
    var expiration := ApplyExpiration(rule, v, age);
    var nb := if expiration.0 then counted + 1 else counted;
    Pass(State(latest, v.key, nb), marker + expiration.1 + ApplyNoncurrentVersionExpiration(rule, v, age, nb))
  }

  /** The loop body for a rule at a given instant, as a function of the state and the record. */
  function StepOf(rule: Rule, now: int): (State, Version) -> Pass {
    (st: State, v: Version) => Step(rule, now, st, v)
  }

  /** A record loop, for any loop body, run over a sequence of records from a given state. */
  function FoldBy(step: (State, Version) -> Pass, st: State, records: seq<Version>): Pass
    decreases |records|
  {
    if records == [] then Pass(st, [])
    else
      var first := step(st, records[0]);
      var rest := FoldBy(step, first.state, records[1..]);
      Pass(rest.state, first.calls + rest.calls)
  }

  /** The record loop of a rule run over a sequence of records from a given state. */
  function Fold(rule: Rule, now: int, st: State, records: seq<Version>): Pass {
    FoldBy(StepOf(rule, now), st, records)
  }

  /**
   * The run of one rule, as applyRule means to perform it: a failed
   * GetBucketVersioning call is returned, an unversioned bucket ends the
   * process, a failed sweep or listing page is returned, and after the last
   * page the delete-marker check runs once more with no incoming record.
   */
  function RunRule(bucket: string, rule: Rule, now: int, view: BucketView): RuleRun
    requires AbortDaysPresent(rule)
  {
    if view.versioning.Err? then RuleRun([], Failed(view.versioning.error))
    else if view.versioning.value != "Enabled" then RuleRun([], Exited(bucket + " is not a versioned bucket"))
    else
      var sweep := Sweep(rule, now, view.uploads);
      if sweep.1.Some? then RuleRun(sweep.0, Failed(sweep.1.value))
      else
        var pass := Fold(rule, now, Initial, Stream(OkPrefix(view.versions)));
        match FirstError(view.versions)
        case Some(e) => RuleRun(sweep.0 + pass.calls, Failed(e))
        case None => RuleRun(sweep.0 + pass.calls + ExpireObjectDeleteMarker(rule, pass.state, None), Completed)
  }

  /**
   * applyRule as the source spells it: after a failed sweep it returns the
   * variable holding GetBucketVersioning's error, which is nil there, so the
   * version pass is skipped and the rule reports success.
   */
  function RunRuleAsWritten(bucket: string, rule: Rule, now: int, view: BucketView): (r: RuleRun)
    requires AbortDaysPresent(rule)
    ensures r.outcome.Exited? <==> view.versioning.Ok? && view.versioning.value != "Enabled"
    ensures r.outcome.Failed? ==> VersionsError(view, r.outcome.error)
  {
    if view.versioning.Err? then RuleRun([], Failed(view.versioning.error))
    else if view.versioning.value != "Enabled" then RuleRun([], Exited(bucket + " is not a versioned bucket"))
    else
      var sweep := Sweep(rule, now, view.uploads);
      if sweep.1.Some? then RuleRun(sweep.0, Completed)
      else RunRule(bucket, rule, now, view)
  }

  /** The errors applyRule as written can report: the versioning query's, or the first failing version page's. */
  predicate VersionsError(view: BucketView, e: string) {
    || view.versioning == Err(e)
    || (view.versioning.Ok? && FirstError(view.versions) == Some(e))
  }

  /** On a versioned bucket the source's rule run issues the sweep's aborts first, whether the sweep fails or not. */
  lemma AsWrittenAbortsFirst(bucket: string, rule: Rule, now: int, view: BucketView)
    requires AbortDaysPresent(rule) && view.versioning == Ok("Enabled")
    ensures Sweep(rule, now, view.uploads).0 <= RunRuleAsWritten(bucket, rule, now, view).calls
  {
  }

  /** The two readings differ exactly when the versioned bucket's sweep fails. */
  lemma AsWrittenDiffersOnlyOnSweepError(bucket: string, rule: Rule, now: int, view: BucketView)
    requires AbortDaysPresent(rule)
    ensures RunRuleAsWritten(bucket, rule, now, view) != RunRule(bucket, rule, now, view) <==>
      view.versioning == Ok("Enabled") && Sweep(rule, now, view.uploads).1.Some?
  {
  }

  /** A concrete bucket whose upload listing fails: as written the rule succeeds without looking at any version. */
  lemma SweepErrorSwallowed()
    ensures
      var rule := Rule("r1", "Enabled", None, Some(Expiration(Some(0), false)), None,
                       Some(AbortIncompleteMultipartUpload(Some(0))));
      var record := ObjectVersion("key1", true, 0, "v1");
      var view := BucketView(Ok("Enabled"), [Err("listing failed")], [Ok(ListObjectVersionsOutput([record], []))]);
      && RunRuleAsWritten("abucket", rule, 0, view) == RuleRun([], Completed)
      && RunRule("abucket", rule, 0, view) == RuleRun([], Failed("listing failed"))
  {
  }

  lemma {:induction false} FoldByAppend(step: (State, Version) -> Pass, st: State, a: seq<Version>, b: seq<Version>)
    ensures FoldBy(step, st, a + b) ==
      var first := FoldBy(step, st, a);
      var second := FoldBy(step, first.state, b);
      Pass(second.state, first.calls + second.calls)
    decreases |a|
  {
    if a == [] {
      assert a + b == b;
    } else {
      assert (a + b)[0] == a[0] && (a + b)[1..] == a[1..] + b;
      FoldByAppend(step, step(st, a[0]).state, a[1..], b);
    }
  }

  lemma FoldBySnoc(step: (State, Version) -> Pass, st: State, records: seq<Version>, v: Version)
    ensures FoldBy(step, st, records + [v]) ==
      var before := FoldBy(step, st, records);
      var last := step(before.state, v);
      Pass(last.state, before.calls + last.calls)
  {
    FoldByAppend(step, st, records, [v]);
    assert FoldBy(step, step(FoldBy(step, st, records).state, v).state, []) == Pass(step(FoldBy(step, st, records).state, v).state, []);
  }

  /** The first record: the loop body, then the rest of the records from the state it leaves. */
  lemma FoldCons(rule: Rule, now: int, st: State, records: seq<Version>)
    requires records != []
    ensures Fold(rule, now, st, records) ==
      var first := Step(rule, now, st, records[0]);
      var rest := Fold(rule, now, first.state, records[1..]);
      Pass(rest.state, first.calls + rest.calls)
  {
  }

  /** One more record: the loop body applied to the state the earlier records left. */
  lemma FoldSnoc(rule: Rule, now: int, st: State, records: seq<Version>, v: Version)
    ensures Fold(rule, now, st, records + [v]) ==
      var before := Fold(rule, now, st, records);
      var last := Step(rule, now, before.state, v);
      Pass(last.state, before.calls + last.calls)
  {
    FoldBySnoc(StepOf(rule, now), st, records, v);
  }

  /** The pass does not depend on how the records are split into pages: running a+b is running a, then b. */
  lemma FoldAppend(rule: Rule, now: int, st: State, a: seq<Version>, b: seq<Version>)
    ensures Fold(rule, now, st, a + b) ==
      var first := Fold(rule, now, st, a);
      var second := Fold(rule, now, first.state, b);
      Pass(second.state, first.calls + second.calls)
  {
    FoldByAppend(StepOf(rule, now), st, a, b);
  }

  /** One listing page, normalised and sorted in place (the source sorts the page's own slice). */
  method SortedPage(output: ListObjectVersionsOutput) returns (records: seq<Version>)
    ensures records == SortedVersions(VersionsOf(output))
  {
    var listed := ToVersions(output);
    var page := new Version[|listed|](i requires 0 <= i < |listed| => listed[i]);
    assert page[..] == listed;
    SortVersions(page);
    records := page[..];
  }

  /**
   * The body of the record loop: the delete-marker check against the
   * incoming record, the bookkeeping of previousLatest, currentKey and
   * nbVersions, then the two actions.
   */
  method ProcessRecord(rule: Rule, now: int, st: State, version: Version) returns (st': State, calls: seq<Action>)
    ensures Pass(st', calls) == Step(rule, now, st, version)
  {
    var previousLatest, currentKey, nbVersions := st.previousLatest, st.currentKey, st.nbVersions;
    var marker := ExpireObjectDeleteMarker(rule, st, Some(version));
    if currentKey != "" && version.key != currentKey {
      nbVersions := 0;
    }
    if version.isLatest {
      previousLatest := version;
    }
    if currentKey != "" && version.key == currentKey && !version.isLatest {
      nbVersions := nbVersions + 1;
    }
    currentKey := version.key;

    var age := AgeInDays(now, version.lastModified);
    var expiration := ApplyExpiration(rule, version, age);
    if expiration.0 {
      nbVersions := nbVersions + 1;
    }
    var noncurrent := ApplyNoncurrentVersionExpiration(rule, version, age, nbVersions);
    st' := State(previousLatest, currentKey, nbVersions);
    calls := marker + expiration.1 + noncurrent;
  }

  /** The record loop over one sorted page. */
  method StreamRecords(rule: Rule, now: int, st: State, records: seq<Version>) returns (st': State, calls: seq<Action>)
    ensures Pass(st', calls) == Fold(rule, now, st, records)
  {
    st', calls := st, [];
    var i := 0;
    assert records[i..] == records;
    while i < |records|
      invariant 0 <= i <= |records|
      invariant Fold(rule, now, st, records) ==
        var rest := Fold(rule, now, st', records[i..]);
        Pass(rest.state, calls + rest.calls)
    {
      assert records[i..][0] == records[i] && records[i..][1..] == records[i + 1..];
      var recordCalls;
      st', recordCalls := ProcessRecord(rule, now, st', records[i]);
      calls := calls + recordCalls;
      i := i + 1;
    }
    assert records[i..] == [];
  }

  /** Streaming the pages still to fetch: the next page's records first, then the rest. */
  lemma ListingStep(rule: Rule, now: int, pages: seq<Result<ListObjectVersionsOutput>>, p: nat,
                    st: State, st': State, pageCalls: seq<Action>)
    requires p < |pages| && pages[p].Ok?
    requires Pass(st', pageCalls) == Fold(rule, now, st, SortedVersions(VersionsOf(pages[p].value)))
    ensures Fold(rule, now, st, Stream(OkPrefix(pages[p..]))) ==
      var rest := Fold(rule, now, st', Stream(OkPrefix(pages[p + 1..])));
      Pass(rest.state, pageCalls + rest.calls)
    ensures FirstError(pages[p..]) == FirstError(pages[p + 1..])
  {
    OkPrefixFrom(pages, p);
    StreamCons(pages[p].value, OkPrefix(pages[p + 1..]));
    FoldAppend(rule, now, st, SortedVersions(VersionsOf(pages[p].value)), Stream(OkPrefix(pages[p + 1..])));
  }

  /** A failed page fetch: no more records are streamed and its error is the listing's. */
  lemma ListingStops(rule: Rule, now: int, pages: seq<Result<ListObjectVersionsOutput>>, p: nat, st: State)
    requires p < |pages| && pages[p].Err?
    ensures Fold(rule, now, st, Stream(OkPrefix(pages[p..]))) == Pass(st, [])
    ensures FirstError(pages[p..]) == Some(pages[p].error)
  {
    OkPrefixFrom(pages, p);
  }

  /** The listing loop's invariant: what is left to stream from page p on completes the whole pass. */
  ghost predicate ListedUpTo(rule: Rule, now: int, pages: seq<Result<ListObjectVersionsOutput>>, p: nat,
                             st: State, calls: seq<Action>)
    requires p <= |pages|
  {
    && Fold(rule, now, Initial, Stream(OkPrefix(pages))) ==
         (var rest := Fold(rule, now, st, Stream(OkPrefix(pages[p..]))); Pass(rest.state, calls + rest.calls))
    && FirstError(pages) == FirstError(pages[p..])
  }

  /** Streaming a fetched page keeps the invariant, one page further on. */
  lemma ListedPage(rule: Rule, now: int, pages: seq<Result<ListObjectVersionsOutput>>, p: nat,
                   st: State, calls: seq<Action>, st': State, pageCalls: seq<Action>)
    requires p < |pages| && pages[p].Ok? && ListedUpTo(rule, now, pages, p, st, calls)
    requires Pass(st', pageCalls) == Fold(rule, now, st, SortedVersions(VersionsOf(pages[p].value)))
    ensures ListedUpTo(rule, now, pages, p + 1, st', calls + pageCalls)
  {
    ListingStep(rule, now, pages, p, st, st', pageCalls);
    var rest := Fold(rule, now, st', Stream(OkPrefix(pages[p + 1..])));
    AppendAssociative(calls, pageCalls, rest.calls);
  }

  /** The invariant once no page is left to stream, or at a failed fetch: the pass is done. */
  lemma ListedAll(rule: Rule, now: int, pages: seq<Result<ListObjectVersionsOutput>>, p: nat,
                  st: State, calls: seq<Action>)
    requires p <= |pages| && ListedUpTo(rule, now, pages, p, st, calls)
    requires p == |pages| || pages[p].Err?
    ensures Pass(st, calls) == Fold(rule, now, Initial, Stream(OkPrefix(pages)))
    ensures FirstError(pages) == if p == |pages| then None else Some(pages[p].error)
  {
    if p == |pages| {
      assert pages[p..] == [];
    } else {
      ListingStops(rule, now, pages, p, st);
    }
    assert Fold(rule, now, st, Stream(OkPrefix(pages[p..]))) == Pass(st, []);
    assert calls == calls + [];
  }

  /** One fetched page: sorted, then streamed through the record loop. */
  method StreamPage(rule: Rule, now: int, pages: seq<Result<ListObjectVersionsOutput>>, p: nat,
                    st: State, calls: seq<Action>) returns (st': State, calls': seq<Action>)
    requires p < |pages| && pages[p].Ok? && ListedUpTo(rule, now, pages, p, st, calls)
    ensures ListedUpTo(rule, now, pages, p + 1, st', calls')
  {
    var records := SortedPage(pages[p].value);
    var pageCalls;
    st', pageCalls := StreamRecords(rule, now, st, records);
    ListedPage(rule, now, pages, p, st, calls, st', pageCalls);
    calls' := calls + pageCalls;
  }

  /** Before the first page nothing is streamed yet. */
  lemma ListedStart(rule: Rule, now: int, pages: seq<Result<ListObjectVersionsOutput>>)
    ensures ListedUpTo(rule, now, pages, 0, Initial, [])
  {
    var rest := Fold(rule, now, Initial, Stream(OkPrefix(pages)));
    assert pages[0..] == pages;
    assert Pass(rest.state, [] + rest.calls) == rest;
  }

  /**
   * The listing loop of applyRule: every page fetched, sorted and streamed
   * through the record loop in order, stopping at the first failed fetch.
   */
  method StreamListing(rule: Rule, now: int, pages: seq<Result<ListObjectVersionsOutput>>)
    returns (st: State, calls: seq<Action>, err: Option<string>)
    ensures Pass(st, calls) == Fold(rule, now, Initial, Stream(OkPrefix(pages)))
    ensures err == FirstError(pages)
  {
    st, calls, err := Initial, [], None;
    var p := 0;
    ListedStart(rule, now, pages);
    while p < |pages| && pages[p].Ok?
      invariant 0 <= p <= |pages|
      invariant ListedUpTo(rule, now, pages, p, st, calls)
    {
      st, calls := StreamPage(rule, now, pages, p, st, calls);
      p := p + 1;
    }
    ListedAll(rule, now, pages, p, st, calls);
    if p < |pages| {
      err := Some(pages[p].error);
    }
  }

  /**
   * applyRule: check versioning, sweep multipart uploads, then stream every
   * listing page, sorted, through the record loop, and run the delete-marker
   * check once more after the last page.
   */
  method ApplyRule(bucket: string, rule: Rule, now: int, view: BucketView) returns (run: RuleRun)
    requires AbortDaysPresent(rule)
    ensures run == RunRule(bucket, rule, now, view)
  {
    if view.versioning.Err? {
      return RuleRun([], Failed(view.versioning.error));
    }
    if view.versioning.value != "Enabled" {
      return RuleRun([], Exited(bucket + " is not a versioned bucket"));
    }
    var aborts, sweepError := ApplyAbortIncompleteMultipartUpload(rule, now, view.uploads);
    if sweepError.Some? {
      return RuleRun(aborts, Failed(sweepError.value));
    }
    var st, calls, err := StreamListing(rule, now, view.versions);
    if err.Some? {
      return RuleRun(aborts + calls, Failed(err.value));
    }
    return RuleRun(aborts + calls + ExpireObjectDeleteMarker(rule, st, None), Completed);
  }

  // ----- Execute -----

  /**
   * Rule runs chained as Execute chains them: the calls accumulate, and the
   * first run that does not complete ends the chain with its outcome.
   */
  function Chain(runs: seq<RuleRun>): RuleRun {
    if runs == [] then RuleRun([], Completed)
    else if runs[0].outcome != Completed then runs[0]
    else
      var rest := Chain(runs[1..]);
      RuleRun(runs[0].calls + rest.calls, rest.outcome)
  }

  /** The run of each rule against the bucket view it observes. */
  function RuleRuns(bucket: string, rules: seq<Rule>, now: int, views: seq<BucketView>): (runs: seq<RuleRun>)
    requires |views| == |rules|
    requires forall i :: 0 <= i < |rules| ==> AbortDaysPresent(rules[i])
    ensures |runs| == |rules|
    ensures forall i :: 0 <= i < |rules| ==> runs[i] == RunRule(bucket, rules[i], now, views[i])
  {
    seq(|rules|, i requires 0 <= i < |rules| => RunRule(bucket, rules[i], now, views[i]))
  }

  /** Execute: the rules in configuration order, stopping at the first rule that does not complete. */
  function ExecuteRules(bucket: string, rules: seq<Rule>, now: int, views: seq<BucketView>): RuleRun
    requires |views| == |rules|
    requires forall i :: 0 <= i < |rules| ==> AbortDaysPresent(rules[i])
  {
    Chain(RuleRuns(bucket, rules, now, views))
  }

  /**
   * Execute: applies the configuration's rules in order, whatever their
   * Status; views[i] is what rule i observes of the bucket.
   */
  method Execute(bucket: string, blc: BucketLifecycleConfiguration, now: int, views: seq<BucketView>) returns (run: RuleRun)
    requires |views| == |blc.rules|
    requires forall i :: 0 <= i < |blc.rules| ==> AbortDaysPresent(blc.rules[i])
    ensures run == ExecuteRules(bucket, blc.rules, now, views)
  {
    var rules := blc.rules;
    ghost var runs := RuleRuns(bucket, rules, now, views);
    var calls := [];
    var i := 0;
    while i < |rules|
      invariant 0 <= i <= |rules|
      invariant Chain(runs) == var rest := Chain(runs[i..]); RuleRun(calls + rest.calls, rest.outcome)
    {
      var r := ApplyRule(bucket, rules[i], now, views[i]);
      assert runs[i..][0] == r && runs[i..][1..] == runs[i + 1..];
      calls := calls + r.calls;
      if r.outcome != Completed {
        return RuleRun(calls, r.outcome);
      }
      i := i + 1;
    }
    return RuleRun(calls, Completed);
  }

  // ----- What the run does not depend on, and how Execute composes -----

  /** The action blocks of a rule: everything the engine reads of it. */
  predicate SameActions(a: Rule, b: Rule) {
    && a.expiration == b.expiration
    && a.noncurrentVersionExpiration == b.noncurrentVersionExpiration
    && a.abortIncompleteMultipartUpload == b.abortIncompleteMultipartUpload
  }

  lemma {:induction false} FoldByScope(f: (State, Version) -> Pass, g: (State, Version) -> Pass, st: State, records: seq<Version>)
    requires forall s: State, v: Version :: f(s, v) == g(s, v)
    ensures FoldBy(f, st, records) == FoldBy(g, st, records)
    decreases |records|
  {
    if records != [] {
      FoldByScope(f, g, f(st, records[0]).state, records[1..]);
    }
  }

  lemma FoldScope(a: Rule, b: Rule, now: int, st: State, records: seq<Version>)
    requires SameActions(a, b)
    ensures Fold(a, now, st, records) == Fold(b, now, st, records)
  {
    forall s: State, v: Version
      ensures StepOf(a, now)(s, v) == StepOf(b, now)(s, v)
    {
      assert ApplyExpiration(a, v, AgeInDays(now, v.lastModified)) == ApplyExpiration(b, v, AgeInDays(now, v.lastModified));
    }
    FoldByScope(StepOf(a, now), StepOf(b, now), st, records);
  }

  /** ID, Status and Filter play no part in a rule's run: a Disabled rule runs like an Enabled one. */
  lemma RunRuleScope(bucket: string, a: Rule, b: Rule, now: int, view: BucketView)
    requires SameActions(a, b) && AbortDaysPresent(a)
    ensures AbortDaysPresent(b)
    ensures RunRule(bucket, a, now, view) == RunRule(bucket, b, now, view)
  {
    FoldScope(a, b, now, Initial, Stream(OkPrefix(view.versions)));
  }

  lemma {:induction false} ChainCompletes(runs: seq<RuleRun>)
    ensures Chain(runs).outcome == Completed <==> forall i :: 0 <= i < |runs| ==> runs[i].outcome == Completed
  {
    if runs != [] {
      ChainCompletes(runs[1..]);
      assert forall i :: 1 <= i < |runs| ==> runs[1..][i - 1] == runs[i];
    }
  }

  lemma {:induction false} ChainSplit(runs: seq<RuleRun>, i: nat)
    requires i <= |runs|
    requires forall j :: 0 <= j < i ==> runs[j].outcome == Completed
    ensures Chain(runs[..i]).outcome == Completed
    ensures Chain(runs) == RuleRun(Chain(runs[..i]).calls + Chain(runs[i..]).calls, Chain(runs[i..]).outcome)
  {
    if i == 0 {
      assert runs[i..] == runs;
    } else {
      var tail := runs[1..];
      assert forall j :: 0 <= j < i - 1 ==> tail[j].outcome == Completed by {
        assert forall j :: 0 <= j < i - 1 ==> tail[j] == runs[j + 1];
      }
      ChainSplit(tail, i - 1);
      assert runs[..i][0] == runs[0] && runs[..i][1..] == tail[..i - 1];
      assert tail[i - 1..] == runs[i..];
      var front, back := Chain(tail[..i - 1]), Chain(runs[i..]);
      assert Chain(runs[..i]) == RuleRun(runs[0].calls + front.calls, front.outcome);
      assert Chain(runs) == RuleRun(runs[0].calls + (front.calls + back.calls), back.outcome);
      AppendAssociative(runs[0].calls, front.calls, back.calls);
    }
  }

  /** Execute completes exactly when every rule completes. */
  lemma ExecuteCompletes(bucket: string, rules: seq<Rule>, now: int, views: seq<BucketView>)
    requires |views| == |rules|
    requires forall i :: 0 <= i < |rules| ==> AbortDaysPresent(rules[i])
    ensures ExecuteRules(bucket, rules, now, views).outcome == Completed <==>
      forall i :: 0 <= i < |rules| ==> RunRule(bucket, rules[i], now, views[i]).outcome == Completed
  {
    ChainCompletes(RuleRuns(bucket, rules, now, views));
  }

  /**
   * A rule that fails or exits is the last one run: Execute's log is the
   * earlier rules' calls followed by that rule's, and its outcome is Execute's.
   */
  lemma ExecuteStopsAt(bucket: string, rules: seq<Rule>, now: int, views: seq<BucketView>, i: nat)
    requires |views| == |rules| && i < |rules|
    requires forall j :: 0 <= j < |rules| ==> AbortDaysPresent(rules[j])
    requires forall j :: 0 <= j < i ==> RunRule(bucket, rules[j], now, views[j]).outcome == Completed
    requires RunRule(bucket, rules[i], now, views[i]).outcome != Completed
    ensures ExecuteRules(bucket, rules, now, views) ==
      var done := ExecuteRules(bucket, rules[..i], now, views[..i]);
      var failing := RunRule(bucket, rules[i], now, views[i]);
      RuleRun(done.calls + failing.calls, failing.outcome)
  {
    var runs := RuleRuns(bucket, rules, now, views);
    ChainSplit(runs, i);
    assert runs[..i] == RuleRuns(bucket, rules[..i], now, views[..i]);
    assert runs[i..][0] == runs[i];
  }

  /** Rules that agree on their action blocks give the same Execute run, whatever their IDs, Status and Filter. */
  lemma ExecuteScope(bucket: string, a: seq<Rule>, b: seq<Rule>, now: int, views: seq<BucketView>)
    requires |views| == |a| == |b|
    requires forall i :: 0 <= i < |a| ==> AbortDaysPresent(a[i]) && SameActions(a[i], b[i])
    ensures forall i :: 0 <= i < |b| ==> AbortDaysPresent(b[i])
    ensures ExecuteRules(bucket, a, now, views) == ExecuteRules(bucket, b, now, views)
  {
    forall i | 0 <= i < |a|
      ensures AbortDaysPresent(b[i]) && RunRule(bucket, a[i], now, views[i]) == RunRule(bucket, b[i], now, views[i])
    {
      RunRuleScope(bucket, a[i], b[i], now, views[i]);
    }
    assert RuleRuns(bucket, a, now, views) == RuleRuns(bucket, b, now, views);
  }

  // ----- Execute as written: a swallowed sweep error lets Execute go on -----

  /** The run of each rule as the source computes it, with the stale return after a failed sweep. */
  function RuleRunsAsWritten(bucket: string, rules: seq<Rule>, now: int, views: seq<BucketView>): (runs: seq<RuleRun>)
    requires |views| == |rules|
    requires forall i :: 0 <= i < |rules| ==> AbortDaysPresent(rules[i])
    ensures |runs| == |rules|
    ensures forall i :: 0 <= i < |rules| ==> runs[i] == RunRuleAsWritten(bucket, rules[i], now, views[i])
  {
    seq(|rules|, i requires 0 <= i < |rules| => RunRuleAsWritten(bucket, rules[i], now, views[i]))
  }

  /** Execute as the source runs it: the as-written rule runs, chained in configuration order. */
  function ExecuteRulesAsWritten(bucket: string, rules: seq<Rule>, now: int, views: seq<BucketView>): (r: RuleRun)
    requires |views| == |rules|
    requires forall i :: 0 <= i < |rules| ==> AbortDaysPresent(rules[i])
    ensures r.outcome == Completed <==>
      forall i :: 0 <= i < |rules| ==> RunRuleAsWritten(bucket, rules[i], now, views[i]).outcome == Completed
    ensures r.outcome.Failed? ==> exists i :: 0 <= i < |rules| && VersionsError(views[i], r.outcome.error)
  {
    var runs := RuleRunsAsWritten(bucket, rules, now, views);
    ChainCompletes(runs);
    ChainOutcome(runs);
    Chain(runs)
  }

  /** A chain that does not complete ends with the outcome of one of its runs. */
  lemma {:induction false} ChainOutcome(runs: seq<RuleRun>)
    ensures Chain(runs).outcome != Completed ==> exists i :: 0 <= i < |runs| && runs[i].outcome == Chain(runs).outcome
  {
    if runs != [] && runs[0].outcome == Completed {
      ChainOutcome(runs[1..]);
      if Chain(runs).outcome != Completed {
        var i :| 0 <= i < |runs[1..]| && runs[1..][i].outcome == Chain(runs[1..]).outcome;
        assert runs[i + 1] == runs[1..][i];
      }
    }
  }

  /** When no versioned bucket's sweep fails, Execute as written and the corrected Execute agree. */
  lemma ExecuteAsWrittenAgrees(bucket: string, rules: seq<Rule>, now: int, views: seq<BucketView>)
    requires |views| == |rules|
    requires forall i :: 0 <= i < |rules| ==> AbortDaysPresent(rules[i])
    requires forall i :: 0 <= i < |rules| ==>
      !(views[i].versioning == Ok("Enabled") && Sweep(rules[i], now, views[i].uploads).1.Some?)
    ensures ExecuteRulesAsWritten(bucket, rules, now, views) == ExecuteRules(bucket, rules, now, views)
  {
    forall i | 0 <= i < |rules|
      ensures RunRuleAsWritten(bucket, rules[i], now, views[i]) == RunRule(bucket, rules[i], now, views[i])
    {
      AsWrittenDiffersOnlyOnSweepError(bucket, rules[i], now, views[i]);
    }
    assert RuleRunsAsWritten(bucket, rules, now, views) == RuleRuns(bucket, rules, now, views);
  }

  /**
   * A failed sweep does not stop Execute as written: the rule counts as
   * completed with only its aborts, and the following rules still run. The
   * corrected run of that rule fails with the sweep's error.
   */
  lemma ExecuteAsWrittenContinues(bucket: string, rules: seq<Rule>, now: int, views: seq<BucketView>, i: nat)
    requires |views| == |rules| && i < |rules|
    requires forall j :: 0 <= j < |rules| ==> AbortDaysPresent(rules[j])
    requires forall j :: 0 <= j < i ==> RunRuleAsWritten(bucket, rules[j], now, views[j]).outcome == Completed
    requires views[i].versioning == Ok("Enabled") && Sweep(rules[i], now, views[i].uploads).1.Some?
    ensures RunRule(bucket, rules[i], now, views[i]) ==
      RuleRun(Sweep(rules[i], now, views[i].uploads).0, Failed(Sweep(rules[i], now, views[i].uploads).1.value))
    ensures ExecuteRulesAsWritten(bucket, rules, now, views) ==
      var done := ExecuteRulesAsWritten(bucket, rules[..i], now, views[..i]);
      var rest := ExecuteRulesAsWritten(bucket, rules[i + 1..], now, views[i + 1..]);
      RuleRun(done.calls + Sweep(rules[i], now, views[i].uploads).0 + rest.calls, rest.outcome)
  {
    var runs := RuleRunsAsWritten(bucket, rules, now, views);
    assert runs[..i] == RuleRunsAsWritten(bucket, rules[..i], now, views[..i]);
    assert runs[i + 1..] == RuleRunsAsWritten(bucket, rules[i + 1..], now, views[i + 1..]);
    ChainSkip(runs, i, Sweep(rules[i], now, views[i].uploads).0);
  }

  /** A completed run in the middle of a chain of completed runs adds its calls and lets the chain go on. */
  lemma ChainSkip(runs: seq<RuleRun>, i: nat, calls: seq<Action>)
    requires i < |runs| && runs[i] == RuleRun(calls, Completed)
    requires forall j :: 0 <= j < i ==> runs[j].outcome == Completed
    ensures Chain(runs) ==
      RuleRun(Chain(runs[..i]).calls + calls + Chain(runs[i + 1..]).calls, Chain(runs[i + 1..]).outcome)
  {
    ChainSplit(runs, i);
    assert runs[i..][0] == runs[i] && runs[i..][1..] == runs[i + 1..];
    var done, rest := Chain(runs[..i]), Chain(runs[i + 1..]);
    assert Chain(runs[i..]) == RuleRun(calls + rest.calls, rest.outcome);
    AppendAssociative(done.calls, calls, rest.calls);
  }

  /** Two runs, the first completing with no calls: the chain is the second run. */
  lemma ChainPair(runs: seq<RuleRun>)
    requires |runs| == 2 && runs[0] == RuleRun([], Completed) && runs[1].outcome == Completed
    ensures Chain(runs) == runs[1]
  {
    assert runs[1..][1..] == [];
    assert Chain(runs[1..]) == RuleRun(runs[1].calls + [], Completed);
    assert Chain(runs) == RuleRun([] + runs[1].calls, Completed);
  }

  /**
   * Two rules: r1 only aborts uploads and its upload listing fails; r2
   * expires latest versions at 0 days. As written, Execute goes on to r2 and
   * deletes key1; the corrected Execute stops at r1 with the listing error.
   */
  lemma SweepErrorSkipsToNextRule()
    ensures
      var r1 := Rule("r1", "Enabled", None, None, None, Some(AbortIncompleteMultipartUpload(Some(0))));
      var r2 := Rule("r2", "Enabled", None, Some(Expiration(Some(0), false)), None, None);
      var v1 := BucketView(Ok("Enabled"), [Err("boom")], []);
      var page := ListObjectVersionsOutput([ObjectVersion("key1", true, 0, "v1")], []);
      var v2 := BucketView(Ok("Enabled"), [], [Ok(page)]);
      && ExecuteRulesAsWritten("abucket", [r1, r2], 0, [v1, v2]) == RuleRun([DeleteCurrent("key1")], Completed)
      && ExecuteRules("abucket", [r1, r2], 0, [v1, v2]) == RuleRun([], Failed("boom"))
  {
    var r1 := Rule("r1", "Enabled", None, None, None, Some(AbortIncompleteMultipartUpload(Some(0))));
    var r2 := Rule("r2", "Enabled", None, Some(Expiration(Some(0), false)), None, None);
    var v1 := BucketView(Ok("Enabled"), [Err("boom")], []);
    var page := ListObjectVersionsOutput([ObjectVersion("key1", true, 0, "v1")], []);
    var v2 := BucketView(Ok("Enabled"), [], [Ok(page)]);
    SkipsAsWritten(r1, r2, v1, page, v2);
    StopsCorrected(r1, r2, v1, v2);
  }

  /** The as-written half of SweepErrorSkipsToNextRule: the first rule completes, so the second one runs. */
  lemma SkipsAsWritten(r1: Rule, r2: Rule, v1: BucketView, page: ListObjectVersionsOutput, v2: BucketView)
    requires r1 == Rule("r1", "Enabled", None, None, None, Some(AbortIncompleteMultipartUpload(Some(0))))
    requires r2 == Rule("r2", "Enabled", None, Some(Expiration(Some(0), false)), None, None)
    requires v1 == BucketView(Ok("Enabled"), [Err("boom")], [])
    requires page == ListObjectVersionsOutput([ObjectVersion("key1", true, 0, "v1")], [])
    requires v2 == BucketView(Ok("Enabled"), [], [Ok(page)])
    ensures ExecuteRulesAsWritten("abucket", [r1, r2], 0, [v1, v2]) == RuleRun([DeleteCurrent("key1")], Completed)
  {
    SweepOnlyFails(r1, v1);
    ExpireLoneVersion(r2, page, v2);
    AsWrittenDiffersOnlyOnSweepError("abucket", r2, 0, v2);
    WrittenPair("abucket", r1, r2, 0, v1, v2);
  }

  /** Two rules as written, the first completing with no calls: Execute is the second rule's run. */
  lemma WrittenPair(bucket: string, r1: Rule, r2: Rule, now: int, v1: BucketView, v2: BucketView)
    requires AbortDaysPresent(r1) && AbortDaysPresent(r2)
    requires RunRuleAsWritten(bucket, r1, now, v1) == RuleRun([], Completed)
    requires RunRuleAsWritten(bucket, r2, now, v2).outcome == Completed
    ensures ExecuteRulesAsWritten(bucket, [r1, r2], now, [v1, v2]) == RunRuleAsWritten(bucket, r2, now, v2)
  {
    var written := RuleRunsAsWritten(bucket, [r1, r2], now, [v1, v2]);
    assert written == [RuleRun([], Completed), RunRuleAsWritten(bucket, r2, now, v2)];
    ChainPair(written);
  }

  /** The corrected half of SweepErrorSkipsToNextRule: the first rule fails, so Execute stops there. */
  lemma StopsCorrected(r1: Rule, r2: Rule, v1: BucketView, v2: BucketView)
    requires r1 == Rule("r1", "Enabled", None, None, None, Some(AbortIncompleteMultipartUpload(Some(0))))
    requires AbortDaysPresent(r2)
    requires v1 == BucketView(Ok("Enabled"), [Err("boom")], [])
    ensures ExecuteRules("abucket", [r1, r2], 0, [v1, v2]) == RuleRun([], Failed("boom"))
  {
    SweepOnlyFails(r1, v1);
    assert RuleRuns("abucket", [r1, r2], 0, [v1, v2])[0] == RuleRun([], Failed("boom"));
  }

  /** The first rule of SweepErrorSkipsToNextRule: its upload listing fails before any upload is listed. */
  lemma SweepOnlyFails(r1: Rule, v1: BucketView)
    requires r1 == Rule("r1", "Enabled", None, None, None, Some(AbortIncompleteMultipartUpload(Some(0))))
    requires v1 == BucketView(Ok("Enabled"), [Err("boom")], [])
    ensures RunRuleAsWritten("abucket", r1, 0, v1) == RuleRun([], Completed)
    ensures RunRule("abucket", r1, 0, v1) == RuleRun([], Failed("boom"))
  {
    assert Sweep(r1, 0, v1.uploads) == ([], Some("boom"));
  }

  /** The second rule of SweepErrorSkipsToNextRule: one latest live version, expired at 0 days. */
  lemma ExpireLoneVersion(r2: Rule, page: ListObjectVersionsOutput, v2: BucketView)
    requires r2 == Rule("r2", "Enabled", None, Some(Expiration(Some(0), false)), None, None)
    requires page == ListObjectVersionsOutput([ObjectVersion("key1", true, 0, "v1")], [])
    requires v2 == BucketView(Ok("Enabled"), [], [Ok(page)])
    ensures RunRule("abucket", r2, 0, v2) == RuleRun([DeleteCurrent("key1")], Completed)
  {
    var rec := Version("key1", true, 0, "v1", false);
    assert VersionsOf(page) == [rec];
    assert SortedVersions([rec]) == [rec] by {
      assert [rec][..0] == [];
    }
    assert OkPrefix(v2.versions) == [page];
    assert Stream([page]) == [rec] + Stream([]);
    var first := Step(r2, 0, Initial, rec);
    assert first == Pass(State(rec, "key1", 1), [DeleteCurrent("key1")]);
    FoldCons(r2, 0, Initial, [rec]);
    assert Fold(r2, 0, first.state, []) == Pass(first.state, []);
    var calls := [DeleteCurrent("key1")];
    assert Fold(r2, 0, Initial, [rec]) == Pass(first.state, calls + []);
    assert Stream(OkPrefix(v2.versions)) == [rec];
    assert ExpireObjectDeleteMarker(r2, first.state, None) == [];
    assert Sweep(r2, 0, v2.uploads) == ([], None);
    assert FirstError(v2.versions) == None;
    assert [] + calls + [] == calls;
  }
}

=== FILE: perkey.dfy ===
/**
 * What the streaming pass does, key by key, stated without its loop state.
 * A sorted listing in which each key's records are contiguous, newest first,
 * splits into runs: the key's latest record followed by its noncurrent ones.
 * For each run the pass expires the latest record, counts the noncurrent
 * records it passes, and cleans up a lone delete marker when it leaves the key.
 */
module PerKey {
  import opened Wrappers
  import opened Config
  import opened Versions
  import opened Actions
  import opened Engine

  /** One key's records as the sorted listing groups them: its latest record, then noncurrent ones. */
  predicate KeyRun(run: seq<Version>) {
    && run != []
    && run[0].key != ""
    && run[0].isLatest
    && forall j :: 0 < j < |run| ==> run[j].key == run[0].key && !run[j].isLatest
  }

  /** Runs of distinct consecutive keys. */
  predicate Grouped(runs: seq<seq<Version>>) {
    && (forall i :: 0 <= i < |runs| ==> KeyRun(runs[i]))
    && (forall i :: 0 < i < |runs| ==> runs[i][0].key != runs[i - 1][0].key)
  }

  function Age(now: int, v: Version): int {
    AgeInDays(now, v.lastModified)
  }

  /** Whether the rule's Expiration deletes the current version of this latest record. */
  predicate Expires(rule: Rule, now: int, v: Version) {
    ApplyExpiration(rule, v, Age(now, v)).0
  }

  /**
   * Noncurrent-version expiration over consecutive records of one key, the
   * first of which sees the count `first`, the next first + 1, and so on.
   */
  function NoncurrentCalls(rule: Rule, now: int, records: seq<Version>, first: int): seq<Action>
    decreases |records|
  {
    if records == [] then []
    else
      ApplyNoncurrentVersionExpiration(rule, records[0], Age(now, records[0]), first)
      + NoncurrentCalls(rule, now, records[1..], first + 1)
  }

  /** The count the latest record's own noncurrent test sees: 1 when it was just expired. */
  function Offset(rule: Rule, now: int, run: seq<Version>): int
    requires run != []
  {
    if Expires(rule, now, run[0]) then 1 else 0
  }

  /** The calls issued while a key's run is streamed: expiration of the latest record, then the noncurrent tests. */
  function RunCalls(rule: Rule, now: int, run: seq<Version>): seq<Action>
    requires run != []
  {
    ApplyExpiration(rule, run[0], Age(now, run[0])).1 + NoncurrentCalls(rule, now, run, Offset(rule, now, run))
  }

  /** The delete-marker cleanup issued when the pass leaves a key: only for a lone latest delete marker. */
  function MarkerCleanup(rule: Rule, run: seq<Version>): seq<Action>
    requires run != []
  {
    if && rule.expiration.Some? && rule.expiration.value.expiredObjectDeleteMarker
       && run[0].deleteMarker && |run| == 1
    then [DeleteVersion(run[0].key, run[0].versionId)]
    else []
  }

  /** The calls of a whole grouped listing, key by key. */
  function ByKey(rule: Rule, now: int, runs: seq<seq<Version>>): seq<Action>
    requires forall i :: 0 <= i < |runs| ==> runs[i] != []
    decreases |runs|
  {
    if runs == [] then []
    else RunCalls(rule, now, runs[0]) + MarkerCleanup(rule, runs[0]) + ByKey(rule, now, runs[1..])
  }

  /** The state the pass holds after a key's run. */
  function AfterRun(rule: Rule, now: int, run: seq<Version>): State
    requires run != []
  {
    State(run[0], run[0].key, |run| - 1 + Offset(rule, now, run))
  }

  /** A state from which a run of a new key can start: the initial state or the state after another key. */
  predicate Admissible(st: State, key: string) {
    && st.currentKey != key
    && st.previousLatest.key == st.currentKey
    && (st.currentKey == "" ==> st.nbVersions == 0)
  }

  /** The noncurrent records of the current key: each is counted, and only the noncurrent test applies. */
  lemma {:induction false} TailFold(rule: Rule, now: int, st: State, tail: seq<Version>)
    requires st.currentKey != "" && st.previousLatest.key == st.currentKey
    requires forall j :: 0 <= j < |tail| ==> tail[j].key == st.currentKey && !tail[j].isLatest
    ensures Fold(rule, now, st, tail) ==
      Pass(st.(nbVersions := st.nbVersions + |tail|), NoncurrentCalls(rule, now, tail, st.nbVersions + 1))
    decreases |tail|
  {
    if tail != [] {
      var next := st.(nbVersions := st.nbVersions + 1);
      assert Step(rule, now, st, tail[0]) ==
        Pass(next, ApplyNoncurrentVersionExpiration(rule, tail[0], Age(now, tail[0]), st.nbVersions + 1));
      TailFold(rule, now, next, tail[1..]);
    }
  }

  /** The latest record of a new key: the pending marker check, the reset, then the two actions. */
  lemma HeadStep(rule: Rule, now: int, st: State, v: Version)
    requires v.isLatest && v.key != "" && Admissible(st, v.key)
    ensures Step(rule, now, st, v) ==
      var e := if Expires(rule, now, v) then 1 else 0;
      Pass(State(v, v.key, e),
           ExpireObjectDeleteMarker(rule, st, None)
           + ApplyExpiration(rule, v, Age(now, v)).1
           + ApplyNoncurrentVersionExpiration(rule, v, Age(now, v), e))
  {
  }

  /** One key's run from an admissible state. */
  lemma RunFold(rule: Rule, now: int, st: State, run: seq<Version>)
    requires KeyRun(run) && Admissible(st, run[0].key)
    ensures Fold(rule, now, st, run) ==
      Pass(AfterRun(rule, now, run), ExpireObjectDeleteMarker(rule, st, None) + RunCalls(rule, now, run))
  {
    var e := Offset(rule, now, run);
    var head := State(run[0], run[0].key, e);
    var enter := ExpireObjectDeleteMarker(rule, st, None);
    var expiration := ApplyExpiration(rule, run[0], Age(now, run[0])).1;
    var own := ApplyNoncurrentVersionExpiration(rule, run[0], Age(now, run[0]), e);
    var older := NoncurrentCalls(rule, now, run[1..], e + 1);
    HeadStep(rule, now, st, run[0]);
    FoldCons(rule, now, st, run);
    TailFold(rule, now, head, run[1..]);
    assert NoncurrentCalls(rule, now, run, e) == own + older;
    AppendAssociative(enter + expiration, own, older);
    AppendAssociative(enter, expiration, own + older);
  }

  /** Leaving a key: the marker check fires exactly for a lone latest delete marker. */
  lemma LeaveRun(rule: Rule, now: int, run: seq<Version>)
    requires KeyRun(run)
    ensures ExpireObjectDeleteMarker(rule, AfterRun(rule, now, run), None) == MarkerCleanup(rule, run)
  {
  }

  lemma {:induction false} RunsFold(rule: Rule, now: int, st: State, runs: seq<seq<Version>>)
    requires runs != [] && Grouped(runs) && Admissible(st, runs[0][0].key)
    ensures
      var pass := Fold(rule, now, st, Flatten(runs));
      pass.calls + ExpireObjectDeleteMarker(rule, pass.state, None) ==
        ExpireObjectDeleteMarker(rule, st, None) + ByKey(rule, now, runs)
    decreases |runs|
  {
    var run, rest := runs[0], runs[1..];
    var after := AfterRun(rule, now, run);
    assert Flatten(runs) == run + Flatten(rest);
    RunFold(rule, now, st, run);
    FoldAppend(rule, now, st, run, Flatten(rest));
    LeaveRun(rule, now, run);
    var second := Fold(rule, now, after, Flatten(rest));
    var cleanup := MarkerCleanup(rule, run);
    if rest == [] {
      assert second == Pass(after, []);
      assert second.calls + ExpireObjectDeleteMarker(rule, second.state, None) == cleanup + ByKey(rule, now, rest);
    } else {
      assert Grouped(rest) by {
        assert forall i :: 0 <= i < |rest| ==> rest[i] == runs[i + 1];
      }
      assert rest[0] == runs[1];
      RunsFold(rule, now, after, rest);
    }
    Regroup(ExpireObjectDeleteMarker(rule, st, None), RunCalls(rule, now, run), second.calls,
      ExpireObjectDeleteMarker(rule, second.state, None), cleanup, ByKey(rule, now, rest));
  }

  /** The concatenation step of RunsFold, on plain sequences. */
  lemma Regroup<T>(enter: seq<T>, own: seq<T>, calls: seq<T>, last: seq<T>, cleanup: seq<T>, rest: seq<T>)
    requires calls + last == cleanup + rest
    ensures (enter + own + calls) + last == enter + (own + cleanup + rest)
  {
    AppendAssociative(enter + own, calls, last);
    AppendAssociative(enter, own, cleanup + rest);
    AppendAssociative(own, cleanup, rest);
  }

  /**
   * The pass over a grouped listing, including the final marker check, issues
   * for each key in turn: the expiration of its latest record, the noncurrent
   * deletions its count allows, and the cleanup of a lone delete marker.
   */
  lemma PassByKey(rule: Rule, now: int, runs: seq<seq<Version>>)
    requires Grouped(runs)
    ensures
      var pass := Fold(rule, now, Initial, Flatten(runs));
      pass.calls + ExpireObjectDeleteMarker(rule, pass.state, None) == ByKey(rule, now, runs)
  {
    if runs == [] {
      assert Fold(rule, now, Initial, Flatten(runs)) == Pass(Initial, []);
    } else {
      assert Admissible(Initial, runs[0][0].key);
      RunsFold(rule, now, Initial, runs);
      assert ExpireObjectDeleteMarker(rule, Initial, None) == [];
    }
  }

  /**
   * A whole rule over a versioned bucket whose sweep and listing succeed and
   * whose streamed records group into key runs: the sweep's aborts, then the
   * calls key by key.
   */
  lemma RunRuleByKey(bucket: string, rule: Rule, now: int, view: BucketView, runs: seq<seq<Version>>)
    requires AbortDaysPresent(rule)
    requires view.versioning == Ok("Enabled")
    requires Sweep(rule, now, view.uploads).1.None?
    requires FirstError(view.versions).None?
    requires Grouped(runs) && Stream(OkPrefix(view.versions)) == Flatten(runs)
    ensures RunRule(bucket, rule, now, view) ==
      RuleRun(Sweep(rule, now, view.uploads).0 + ByKey(rule, now, runs), Completed)
  {
    PassByKey(rule, now, runs);
    var pass := Fold(rule, now, Initial, Flatten(runs));
    AppendAssociative(Sweep(rule, now, view.uploads).0, pass.calls, ExpireObjectDeleteMarker(rule, pass.state, None));
  }

  // ----- Consequences for each action -----

  /** The deletion of each of the given records, in order. */
  function Deletions(records: seq<Version>): (r: seq<Action>)
    ensures |r| == |records|
    ensures forall j :: 0 <= j < |records| ==> r[j] == DeleteVersion(records[j].key, records[j].versionId)
  {
    seq(|records|, j requires 0 <= j < |records| => DeleteVersion(records[j].key, records[j].versionId))
  }

  /**
   * NewerNoncurrentVersions = n alone: counting from `first`, the records
   * whose count exceeds n are deleted and the others are kept.
   */
  lemma {:induction false} NewerNoncurrentKeeps(rule: Rule, now: int, records: seq<Version>, first: int, n: int)
    requires rule.noncurrentVersionExpiration == Some(NoncurrentVersionExpiration(None, Some(n)))
    requires 0 <= first <= n + 1
    ensures NoncurrentCalls(rule, now, records, first) ==
      if |records| <= n + 1 - first then [] else Deletions(records[n + 1 - first..])
    decreases |records|
  {
    if records != [] {
      if first == n + 1 {
        NewerNoncurrentPast(rule, now, records, first, n);
      } else {
        NewerNoncurrentKeeps(rule, now, records[1..], first + 1, n);
        NewerNoncurrentSpares(rule, now, records, first, n);
      }
    }
  }

  /** Past the NewerNoncurrentVersions threshold every record is deleted. */
  lemma NewerNoncurrentPast(rule: Rule, now: int, records: seq<Version>, first: int, n: int)
    requires rule.noncurrentVersionExpiration == Some(NoncurrentVersionExpiration(None, Some(n)))
    requires records != [] && first == n + 1
    ensures NoncurrentCalls(rule, now, records, first) ==
      if |records| <= n + 1 - first then [] else Deletions(records[n + 1 - first..])
  {
    NoncurrentAllDeleted(rule, now, records, first);
    assert records[n + 1 - first..] == records;
  }

  /** Below the NewerNoncurrentVersions threshold a record is spared: the count moves on, nothing is issued. */
  lemma NewerNoncurrentSpares(rule: Rule, now: int, records: seq<Version>, first: int, n: int)
    requires rule.noncurrentVersionExpiration == Some(NoncurrentVersionExpiration(None, Some(n)))
    requires records != [] && 0 <= first <= n
    requires NoncurrentCalls(rule, now, records[1..], first + 1) ==
      if |records[1..]| <= n + 1 - (first + 1) then [] else Deletions(records[1..][n + 1 - (first + 1)..])
    ensures NoncurrentCalls(rule, now, records, first) ==
      if |records| <= n + 1 - first then [] else Deletions(records[n + 1 - first..])
  {
    assert ApplyNoncurrentVersionExpiration(rule, records[0], Age(now, records[0]), first) == [];
    assert NoncurrentCalls(rule, now, records, first) == NoncurrentCalls(rule, now, records[1..], first + 1);
    if |records| > n + 1 - first {
      assert records[1..][n - first..] == records[n + 1 - first..];
    }
  }

  /** The count is past NewerNoncurrentVersions, or every record is NoncurrentDays old. */
  predicate AllDue(rule: Rule, now: int, records: seq<Version>, first: int)
    requires rule.noncurrentVersionExpiration.Some?
  {
    var nve := rule.noncurrentVersionExpiration.value;
    || (nve.newerNoncurrentVersions.Some? && first > nve.newerNoncurrentVersions.value)
    || (nve.noncurrentDays.Some? && forall j :: 0 <= j < |records| ==> Age(now, records[j]) >= nve.noncurrentDays.value)
  }

  /** Once the count is past the threshold, or every record is old enough, every record is deleted. */
  lemma {:induction false} NoncurrentAllDeleted(rule: Rule, now: int, records: seq<Version>, first: int)
    requires rule.noncurrentVersionExpiration.Some?
    requires AllDue(rule, now, records, first)
    ensures NoncurrentCalls(rule, now, records, first) == Deletions(records)
    decreases |records|
  {
    if records != [] {
      DueHeadDeleted(rule, now, records, first);
      NoncurrentAllDeleted(rule, now, records[1..], first + 1);
      DeletionsCons(records);
    }
  }

  /** Deletions, one record at a time. */
  lemma DeletionsCons(records: seq<Version>)
    requires records != []
    ensures Deletions(records)[0] == DeleteVersion(records[0].key, records[0].versionId)
    ensures Deletions(records)[1..] == Deletions(records[1..])
    ensures Deletions(records) == [DeleteVersion(records[0].key, records[0].versionId)] + Deletions(records[1..])
  {
  }

  /** When every record is due, the first one is deleted and the rest are still due. */
  lemma DueHeadDeleted(rule: Rule, now: int, records: seq<Version>, first: int)
    requires rule.noncurrentVersionExpiration.Some?
    requires records != [] && AllDue(rule, now, records, first)
    ensures ApplyNoncurrentVersionExpiration(rule, records[0], Age(now, records[0]), first) ==
      [DeleteVersion(records[0].key, records[0].versionId)]
    ensures AllDue(rule, now, records[1..], first + 1)
  {
    var nve := rule.noncurrentVersionExpiration.value;
    if !(nve.newerNoncurrentVersions.Some? && first > nve.newerNoncurrentVersions.value) {
      forall j | 0 <= j < |records[1..]|
        ensures Age(now, records[1..][j]) >= nve.noncurrentDays.value
      {
        assert records[1..][j] == records[j + 1];
      }
      assert Age(now, records[0]) >= nve.noncurrentDays.value;
    }
  }

  /** Without a noncurrent block, nothing but the expiration is issued for a run. */
  lemma {:induction false} NoNoncurrentBlock(rule: Rule, now: int, records: seq<Version>, first: int)
    requires rule.noncurrentVersionExpiration.None?
    ensures NoncurrentCalls(rule, now, records, first) == []
    decreases |records|
  {
    if records != [] {
      NoNoncurrentBlock(rule, now, records[1..], first + 1);
    }
  }

  /** A NoncurrentDays threshold no record has reached, and no count threshold: nothing is deleted. */
  lemma {:induction false} NoncurrentNoneDue(rule: Rule, now: int, records: seq<Version>, first: int, days: int)
    requires rule.noncurrentVersionExpiration == Some(NoncurrentVersionExpiration(Some(days), None))
    requires forall j :: 0 <= j < |records| ==> Age(now, records[j]) < days
    ensures NoncurrentCalls(rule, now, records, first) == []
    decreases |records|
  {
    if records != [] {
      NoncurrentNoneDue(rule, now, records[1..], first + 1, days);
    }
  }
}

=== FILE: store.dfy ===
/**
 * The effect of the call log on a versioned bucket, and the end-to-end
 * scenarios the repository's tests exercise: what is left of a key after a
 * rule runs once over a freshly written bucket.
 */
module Store {
  import opened Wrappers
  import opened Config
  import opened Versions
  import opened Actions
  import opened Engine
  import opened PerKey

  /** What the bucket holds: versions that were listed, and delete markers the run itself created. */
  datatype Entry = Listed(version: Version) | NewMarker(key: string)

  /** The versions of a listing, as store entries. */
  function Entries(records: seq<Version>): seq<Entry> {
    seq(|records|, i requires 0 <= i < |records| => Listed(records[i]))
  }

  predicate Matches(e: Entry, key: string, versionId: string) {
    e.Listed? && e.version.key == key && e.version.versionId == versionId
  }

  /** A version-scoped delete: the entries with that key and version ID go. */
  function Remove(store: seq<Entry>, key: string, versionId: string): seq<Entry>
    decreases |store|
  {
    if store == [] then []
    else (if Matches(store[0], key, versionId) then [] else [store[0]]) + Remove(store[1..], key, versionId)
  }

  /**
   * One store call: an unversioned delete on a versioned bucket puts a new
   * delete marker in front, a version-scoped delete removes that version,
   * and an abort leaves the versions alone.
   */
  function Apply(store: seq<Entry>, call: Action): seq<Entry> {
    match call
    case DeleteCurrent(key) => [NewMarker(key)] + store
    case DeleteVersion(key, versionId) => Remove(store, key, versionId)
    case AbortUpload(_, _) => store
  }

  function ApplyAll(store: seq<Entry>, calls: seq<Action>): seq<Entry>
    decreases |calls|
  {
    if calls == [] then store else ApplyAll(Apply(store, calls[0]), calls[1..])
  }

  lemma {:induction false} ApplyAllAppend(store: seq<Entry>, a: seq<Action>, b: seq<Action>)
    ensures ApplyAll(store, a + b) == ApplyAll(ApplyAll(store, a), b)
    decreases |a|
  {
    if a == [] {
      assert a + b == b;
    } else {
      assert (a + b)[0] == a[0] && (a + b)[1..] == a[1..] + b;
      ApplyAllAppend(Apply(store, a[0]), a[1..], b);
    }
  }

  /** No entry of the store is the given version. */
  predicate Untouched(store: seq<Entry>, key: string, versionId: string) {
    forall i :: 0 <= i < |store| ==> !Matches(store[i], key, versionId)
  }

  lemma {:induction false} RemoveUntouched(store: seq<Entry>, key: string, versionId: string)
    requires Untouched(store, key, versionId)
    ensures Remove(store, key, versionId) == store
    decreases |store|
  {
    if store != [] {
      RemoveUntouched(store[1..], key, versionId);
    }
  }

  lemma {:induction false} RemoveAppend(a: seq<Entry>, b: seq<Entry>, key: string, versionId: string)
    ensures Remove(a + b, key, versionId) == Remove(a, key, versionId) + Remove(b, key, versionId)
    decreases |a|
  {
    if a == [] {
      assert a + b == b;
    } else {
      assert (a + b)[0] == a[0] && (a + b)[1..] == a[1..] + b;
      RemoveAppend(a[1..], b, key, versionId);
    }
  }

  /** Distinct version IDs, as the store assigns them. */
  predicate DistinctIds(records: seq<Version>) {
    forall i, j :: 0 <= i < j < |records| ==> records[i].versionId != records[j].versionId
  }

  /** None of the records is in the store. */
  predicate Disjoint(store: seq<Entry>, records: seq<Version>) {
    forall j :: 0 <= j < |records| ==> Untouched(store, records[j].key, records[j].versionId)
  }

  /** Removing a version that is only in the middle piece leaves the outer pieces alone. */
  lemma RemoveMiddle(pre: seq<Entry>, mid: seq<Entry>, post: seq<Entry>, key: string, versionId: string)
    requires Untouched(pre, key, versionId) && Untouched(post, key, versionId)
    ensures Remove(pre + mid + post, key, versionId) == pre + Remove(mid, key, versionId) + post
  {
    RemoveAppend(pre + mid, post, key, versionId);
    RemoveAppend(pre, mid, key, versionId);
    RemoveUntouched(pre, key, versionId);
    RemoveUntouched(post, key, versionId);
  }

  lemma EntriesCons(records: seq<Version>)
    requires records != []
    ensures Entries(records) == [Listed(records[0])] + Entries(records[1..])
  {
  }

  /** The first of distinct versions is none of the later ones. */
  lemma FirstUntouched(gone: seq<Version>)
    requires gone != [] && DistinctIds(gone)
    ensures Untouched(Entries(gone[1..]), gone[0].key, gone[0].versionId)
  {
    var later := gone[1..];
    forall i | 0 <= i < |later|
      ensures !Matches(Entries(later)[i], gone[0].key, gone[0].versionId)
    {
      assert later[i] == gone[i + 1];
    }
  }

  lemma DisjointTail(store: seq<Entry>, gone: seq<Version>)
    requires gone != [] && Disjoint(store, gone)
    ensures Disjoint(store, gone[1..])
  {
    forall j | 0 <= j < |gone| - 1
      ensures Untouched(store, gone[1..][j].key, gone[1..][j].versionId)
    {
      assert gone[1..][j] == gone[j + 1];
    }
  }

  /** Deleting listed versions one by one removes exactly them. */
  lemma {:induction false} DeleteEach(pre: seq<Entry>, gone: seq<Version>, post: seq<Entry>)
    requires DistinctIds(gone) && Disjoint(pre, gone) && Disjoint(post, gone)
    ensures ApplyAll(pre + Entries(gone) + post, Deletions(gone)) == pre + post
    decreases |gone|
  {
    if gone == [] {
      assert pre + Entries(gone) + post == pre + post;
    } else {
      var v := gone[0];
      var later := gone[1..];
      EntriesCons(gone);
      FirstUntouched(gone);
      RemoveUntouched(Entries(later), v.key, v.versionId);
      assert Remove(Entries(gone), v.key, v.versionId) == Entries(later);
      assert Untouched(pre, v.key, v.versionId) && Untouched(post, v.key, v.versionId);
      RemoveMiddle(pre, Entries(gone), post, v.key, v.versionId);
      assert DistinctIds(later) by {
        assert forall i :: 0 <= i < |later| ==> later[i] == gone[i + 1];
      }
      DisjointTail(pre, gone);
      DisjointTail(post, gone);
      DeleteEach(pre, later, post);
      DeletionsCons(gone);
      assert ApplyAll(pre + Entries(gone) + post, Deletions(gone)) ==
        ApplyAll(Apply(pre + Entries(gone) + post, DeleteVersion(v.key, v.versionId)), Deletions(later));
    }
  }

  // ----- Freshly written keys -----

  /** Written less than a day ago: zero days old. */
  predicate Recent(now: int, v: Version) {
    0 <= now - v.lastModified < NanosPerDay
  }

  /** One key written several times: its versions newest first, none of them a delete marker. */
  predicate FreshKey(now: int, run: seq<Version>) {
    && KeyRun(run)
    && DistinctIds(run)
    && forall j :: 0 <= j < |run| ==> !run[j].deleteMarker && Recent(now, run[j])
  }

  lemma RecentAge(now: int, v: Version)
    requires Recent(now, v)
    ensures Age(now, v) == 0
  {
  }

  /** The listing of a versioned bucket, with nothing to sweep and no failed page, streams these runs. */
  predicate Lists(rule: Rule, now: int, view: BucketView, runs: seq<seq<Version>>) {
    && AbortDaysPresent(rule)
    && view.versioning == Ok("Enabled")
    && Sweep(rule, now, view.uploads) == ([], None)
    && FirstError(view.versions).None?
    && Stream(OkPrefix(view.versions)) == Flatten(runs)
  }

  function ExpireAfter(days: int, noncurrent: Option<NoncurrentVersionExpiration>): Rule {
    Rule("rule1", "Enabled", None, Some(Expiration(Some(days), false)), noncurrent, None)
  }

  /** The rules the tests load, as far as a fresh key is concerned: Expiration Days 0 and what keeps `keep` versions. */
  predicate Keeps(rule: Rule, run: seq<Version>, keep: nat) {
    && rule.expiration == Some(Expiration(Some(0), false))
    && (|| (rule.noncurrentVersionExpiration == Some(NoncurrentVersionExpiration(None, Some(keep))))
        || (rule.noncurrentVersionExpiration == Some(NoncurrentVersionExpiration(Some(0), None)) && keep == 0)
        || (rule.noncurrentVersionExpiration == Some(NoncurrentVersionExpiration(Some(1), None)) && keep >= |run|)
        || (rule.noncurrentVersionExpiration.None? && keep >= |run|))
  }

  function Min(a: int, b: int): int {
    if a <= b then a else b
  }

  /** A new delete marker for the key, then deletions of every version after the first `keep`. */
  function KeyCalls(run: seq<Version>, keep: nat): seq<Action>
    requires run != []
  {
    [DeleteCurrent(run[0].key)] + (if |run| <= keep then [] else Deletions(run[keep..]))
  }

  /** The `keep` newest versions. */
  function Kept(run: seq<Version>, keep: nat): seq<Version> {
    run[..Min(keep, |run|)]
  }

  /** Every version of a fresh key is zero days old. */
  lemma FreshAges(now: int, run: seq<Version>)
    requires FreshKey(now, run)
    ensures forall j :: 0 <= j < |run| ==> Age(now, run[j]) == 0
  {
    forall j | 0 <= j < |run|
      ensures Age(now, run[j]) == 0
    {
      RecentAge(now, run[j]);
    }
  }

  /** Expiration Days 0 deletes the latest version of a fresh key, and no marker is cleaned up. */
  lemma FreshHead(now: int, run: seq<Version>, rule: Rule)
    requires FreshKey(now, run) && rule.expiration == Some(Expiration(Some(0), false))
    ensures Offset(rule, now, run) == 1
    ensures ApplyExpiration(rule, run[0], Age(now, run[0])).1 == [DeleteCurrent(run[0].key)]
    ensures MarkerCleanup(rule, run) == []
  {
    RecentAge(now, run[0]);
  }

  /** Counting from 1, the noncurrent block deletes every version after the first `keep`. */
  lemma FreshNoncurrent(now: int, run: seq<Version>, rule: Rule, keep: nat)
    requires FreshKey(now, run) && Keeps(rule, run, keep)
    ensures NoncurrentCalls(rule, now, run, 1) == if |run| <= keep then [] else Deletions(run[keep..])
  {
    var nve := rule.noncurrentVersionExpiration;
    if nve == Some(NoncurrentVersionExpiration(None, Some(keep))) {
      NewerNoncurrentKeeps(rule, now, run, 1, keep);
    } else if nve == Some(NoncurrentVersionExpiration(Some(0), None)) {
      FreshAges(now, run);
      NoncurrentAllDeleted(rule, now, run, 1);
      assert run[0..] == run;
    } else if nve.Some? {
      FreshAges(now, run);
      NoncurrentNoneDue(rule, now, run, 1, 1);
    } else {
      NoNoncurrentBlock(rule, now, run, 1);
    }
  }

  /** What those rules issue for one fresh key. */
  lemma FreshRunCalls(now: int, run: seq<Version>, rule: Rule, keep: nat)
    requires FreshKey(now, run) && Keeps(rule, run, keep)
    ensures RunCalls(rule, now, run) + MarkerCleanup(rule, run) == KeyCalls(run, keep)
  {
    FreshHead(now, run, rule);
    FreshNoncurrent(now, run, rule, keep);
  }

  lemma EntriesAppend(a: seq<Version>, b: seq<Version>)
    ensures Entries(a + b) == Entries(a) + Entries(b)
  {
  }

  lemma DisjointAppend(a: seq<Entry>, b: seq<Entry>, gone: seq<Version>)
    requires Disjoint(a, gone) && Disjoint(b, gone)
    ensures Disjoint(a + b, gone)
  {
    forall j | 0 <= j < |gone|
      ensures Untouched(a + b, gone[j].key, gone[j].versionId)
    {
      assert Untouched(a, gone[j].key, gone[j].versionId) && Untouched(b, gone[j].key, gone[j].versionId);
    }
  }

  /** A suffix of distinct versions: still distinct, still not in the store, and none of the prefix. */
  lemma SplitAt(store: seq<Entry>, run: seq<Version>, keep: nat)
    requires keep <= |run| && DistinctIds(run) && Disjoint(store, run)
    ensures DistinctIds(run[keep..]) && Disjoint(store, run[keep..])
    ensures Disjoint(Entries(run[..keep]), run[keep..])
  {
    var gone := run[keep..];
    assert forall i :: 0 <= i < |gone| ==> gone[i] == run[keep + i];
    forall j | 0 <= j < |gone|
      ensures Untouched(Entries(run[..keep]), gone[j].key, gone[j].versionId)
    {
      forall i | 0 <= i < keep
        ensures !Matches(Entries(run[..keep])[i], gone[j].key, gone[j].versionId)
      {
        assert Entries(run[..keep])[i] == Listed(run[i]);
      }
    }
  }

  /** Deleting the versions after the first `keep` leaves the store around them and those `keep`. */
  lemma SuffixGone(front: seq<Entry>, run: seq<Version>, post: seq<Entry>, keep: nat)
    requires keep < |run| && DistinctIds(run) && Disjoint(front, run) && Disjoint(post, run)
    ensures ApplyAll(front + Entries(run) + post, Deletions(run[keep..])) == front + Entries(run[..keep]) + post
  {
    var kept := Entries(run[..keep]);
    var gone := run[keep..];
    assert run == run[..keep] + gone;
    EntriesAppend(run[..keep], gone);
    SplitAt(front, run, keep);
    SplitAt(post, run, keep);
    DisjointAppend(front, kept, gone);
    AppendAssociative(front, kept, Entries(gone));
    DeleteEach(front + kept, gone, post);
  }

  /** The effect of those calls: the new marker in front, the first `keep` versions kept, the rest gone. */
  lemma FreshRunEffect(pre: seq<Entry>, run: seq<Version>, post: seq<Entry>, keep: nat)
    requires run != [] && DistinctIds(run) && Disjoint(pre, run) && Disjoint(post, run)
    ensures ApplyAll(pre + Entries(run) + post, KeyCalls(run, keep)) ==
      [NewMarker(run[0].key)] + pre + Entries(Kept(run, keep)) + post
  {
    var marker := [NewMarker(run[0].key)];
    var rest := if |run| <= keep then [] else Deletions(run[keep..]);
    ApplyAllAppend(pre + Entries(run) + post, [DeleteCurrent(run[0].key)], rest);
    assert ApplyAll(pre + Entries(run) + post, [DeleteCurrent(run[0].key)]) == marker + (pre + Entries(run) + post);
    AppendAssociative(marker, pre + Entries(run), post);
    AppendAssociative(marker, pre, Entries(run));
    if keep < |run| {
      assert Disjoint(marker, run);
      DisjointAppend(marker, pre, run);
      SuffixGone(marker + pre, run, post, keep);
    } else {
      assert Kept(run, keep) == run;
    }
  }

  /** Over such a listing a rule completes, and issues what it issues key by key. */
  lemma Issues(bucket: string, rule: Rule, now: int, view: BucketView, runs: seq<seq<Version>>)
    requires Grouped(runs) && Lists(rule, now, view, runs)
    ensures RunRule(bucket, rule, now, view) == RuleRun(ByKey(rule, now, runs), Completed)
  {
    RunRuleByKey(bucket, rule, now, view, runs);
    assert [] + ByKey(rule, now, runs) == ByKey(rule, now, runs);
  }

  lemma ByKeyOne(rule: Rule, now: int, run: seq<Version>)
    requires KeyRun(run)
    ensures ByKey(rule, now, [run]) == RunCalls(rule, now, run) + MarkerCleanup(rule, run)
  {
    assert ByKey(rule, now, [run]) == RunCalls(rule, now, run) + MarkerCleanup(rule, run) + [];
  }

  lemma ByKeyTwo(rule: Rule, now: int, first: seq<Version>, second: seq<Version>)
    requires KeyRun(first) && KeyRun(second)
    ensures ByKey(rule, now, [first, second]) ==
      (RunCalls(rule, now, first) + MarkerCleanup(rule, first)) + (RunCalls(rule, now, second) + MarkerCleanup(rule, second))
  {
    assert [first, second][1..] == [second];
    ByKeyOne(rule, now, second);
  }

  /** What is left of one fresh key: the new marker, then its `keep` newest versions. */
  lemma OneKeyEffect(now: int, run: seq<Version>, rule: Rule, keep: nat)
    requires FreshKey(now, run) && Keeps(rule, run, keep)
    ensures ApplyAll(Entries(run), ByKey(rule, now, [run])) == [NewMarker(run[0].key)] + Entries(Kept(run, keep))
  {
    assert ByKey(rule, now, [run]) == KeyCalls(run, keep) by {
      ByKeyOne(rule, now, run);
      FreshRunCalls(now, run, rule, keep);
    }
    LoneKeyEffect(run, keep);
  }

  /** The store holds one key's versions and nothing else. */
  lemma LoneKeyEffect(run: seq<Version>, keep: nat)
    requires run != [] && DistinctIds(run)
    ensures ApplyAll(Entries(run), KeyCalls(run, keep)) == [NewMarker(run[0].key)] + Entries(Kept(run, keep))
  {
    var empty: seq<Entry> := [];
    FreshRunEffect(empty, run, empty, keep);
    assert ApplyAll(empty + Entries(run) + empty, KeyCalls(run, keep)) == [NewMarker(run[0].key)] + empty + Entries(Kept(run, keep)) + empty;
    DropEmpty(empty, Entries(run));
    assert empty + Entries(run) + empty == Entries(run);
    DropEmpty([NewMarker(run[0].key)], Entries(Kept(run, keep)));
  }

  lemma DropEmpty<T>(a: seq<T>, b: seq<T>)
    ensures [] + b + [] == b
    ensures a + [] + b + [] == a + b
  {
  }

  /**
   * One fresh key under Expiration Days 0 together with NewerNoncurrentVersions
   * = keep: a delete marker becomes the latest version and the `keep` newest
   * versions stay (1, 2 and 3 versions left for keep 0, 1 and 2).
   */
  lemma NewerNoncurrentScenario(bucket: string, now: int, view: BucketView, run: seq<Version>, keep: nat)
    requires FreshKey(now, run)
    requires Lists(ExpireAfter(0, Some(NoncurrentVersionExpiration(None, Some(keep)))), now, view, [run])
    ensures
      var r := RunRule(bucket, ExpireAfter(0, Some(NoncurrentVersionExpiration(None, Some(keep)))), now, view);
      && r.outcome == Completed
      && ApplyAll(Entries(run), r.calls) == [NewMarker(run[0].key)] + Entries(Kept(run, keep))
      && |ApplyAll(Entries(run), r.calls)| == 1 + Min(keep, |run|)
  {
    var rule := ExpireAfter(0, Some(NoncurrentVersionExpiration(None, Some(keep))));
    Issues(bucket, rule, now, view, [run]);
    OneKeyEffect(now, run, rule, keep);
  }

  /** One fresh key under Expiration Days 0 and NoncurrentDays 0: only the new delete marker is left. */
  lemma NoncurrentDaysZeroScenario(bucket: string, now: int, view: BucketView, run: seq<Version>)
    requires FreshKey(now, run)
    requires Lists(ExpireAfter(0, Some(NoncurrentVersionExpiration(Some(0), None))), now, view, [run])
    ensures
      var r := RunRule(bucket, ExpireAfter(0, Some(NoncurrentVersionExpiration(Some(0), None))), now, view);
      r.outcome == Completed && ApplyAll(Entries(run), r.calls) == [NewMarker(run[0].key)]
  {
    var rule := ExpireAfter(0, Some(NoncurrentVersionExpiration(Some(0), None)));
    Issues(bucket, rule, now, view, [run]);
    OneKeyEffect(now, run, rule, 0);
    assert Entries(run[..0]) == [];
  }

  /** One fresh key under Expiration Days 0 and NoncurrentDays 1: a marker on top, every version kept. */
  lemma NoncurrentDaysOneScenario(bucket: string, now: int, view: BucketView, run: seq<Version>)
    requires FreshKey(now, run)
    requires Lists(ExpireAfter(0, Some(NoncurrentVersionExpiration(Some(1), None))), now, view, [run])
    ensures
      var r := RunRule(bucket, ExpireAfter(0, Some(NoncurrentVersionExpiration(Some(1), None))), now, view);
      r.outcome == Completed && ApplyAll(Entries(run), r.calls) == [NewMarker(run[0].key)] + Entries(run)
  {
    var rule := ExpireAfter(0, Some(NoncurrentVersionExpiration(Some(1), None)));
    Issues(bucket, rule, now, view, [run]);
    OneKeyEffect(now, run, rule, |run|);
    assert run[..|run|] == run;
  }

  /** One fresh key under Expiration Days 0 alone: a marker on top, every version kept. */
  lemma ExpirationZeroScenario(bucket: string, now: int, view: BucketView, run: seq<Version>)
    requires FreshKey(now, run)
    requires Lists(ExpireAfter(0, None), now, view, [run])
    ensures
      var r := RunRule(bucket, ExpireAfter(0, None), now, view);
      r.outcome == Completed && ApplyAll(Entries(run), r.calls) == [NewMarker(run[0].key)] + Entries(run)
  {
    Issues(bucket, ExpireAfter(0, None), now, view, [run]);
    OneKeyEffect(now, run, ExpireAfter(0, None), |run|);
    assert run[..|run|] == run;
  }

  /** One fresh key under Expiration Days 1: nothing is old enough, nothing is issued. */
  lemma ExpirationOneScenario(bucket: string, now: int, view: BucketView, run: seq<Version>)
    requires FreshKey(now, run)
    requires Lists(ExpireAfter(1, None), now, view, [run])
    ensures RunRule(bucket, ExpireAfter(1, None), now, view) == RuleRun([], Completed)
  {
    var rule := ExpireAfter(1, None);
    Issues(bucket, rule, now, view, [run]);
    RecentAge(now, run[0]);
    NoNoncurrentBlock(rule, now, run, 0);
    assert ByKey(rule, now, [run]) == RunCalls(rule, now, run) + MarkerCleanup(rule, run) + [];
  }

  /** What is left of two fresh keys: both new markers, then each key's `keep` newest versions. */
  lemma TwoKeysEffect(now: int, first: seq<Version>, second: seq<Version>, rule: Rule, keep: nat)
    requires FreshKey(now, first) && FreshKey(now, second) && first[0].key != second[0].key
    requires Keeps(rule, first, keep) && Keeps(rule, second, keep)
    ensures ApplyAll(Entries(first) + Entries(second), ByKey(rule, now, [first, second])) ==
      [NewMarker(second[0].key), NewMarker(first[0].key)] + Entries(Kept(first, keep)) + Entries(Kept(second, keep))
  {
    TwoKeyCalls(now, first, second, rule, keep);
    var m1 := [NewMarker(first[0].key)];
    var m2 := [NewMarker(second[0].key)];
    var x := Entries(Kept(first, keep));
    ApplyAllAppend(Entries(first) + Entries(second), KeyCalls(first, keep), KeyCalls(second, keep));
    FirstKeyEffect(first, second, keep);
    SecondKeyEffect(first, second, keep);
    assert m2 + m1 == [NewMarker(second[0].key), NewMarker(first[0].key)];
  }

  lemma TwoKeyCalls(now: int, first: seq<Version>, second: seq<Version>, rule: Rule, keep: nat)
    requires FreshKey(now, first) && FreshKey(now, second)
    requires Keeps(rule, first, keep) && Keeps(rule, second, keep)
    ensures ByKey(rule, now, [first, second]) == KeyCalls(first, keep) + KeyCalls(second, keep)
  {
    ByKeyTwo(rule, now, first, second);
    FreshRunCalls(now, first, rule, keep);
    FreshRunCalls(now, second, rule, keep);
  }

  /** The first key's calls leave the second key's versions alone. */
  lemma FirstKeyEffect(first: seq<Version>, second: seq<Version>, keep: nat)
    requires KeyRun(first) && DistinctIds(first) && KeyRun(second) && first[0].key != second[0].key
    ensures ApplyAll(Entries(first) + Entries(second), KeyCalls(first, keep)) ==
      [NewMarker(first[0].key)] + Entries(Kept(first, keep)) + Entries(second)
  {
    OtherKey(Entries(second), first);
    FreshRunEffect([], first, Entries(second), keep);
    TwoShapes([NewMarker(first[0].key)], [], Entries(first), Entries(Kept(first, keep)), Entries(second), []);
  }

  /** The second key's calls leave the first key's marker and kept versions alone. */
  lemma SecondKeyEffect(first: seq<Version>, second: seq<Version>, keep: nat)
    requires KeyRun(first) && KeyRun(second) && DistinctIds(second) && first[0].key != second[0].key
    ensures ApplyAll([NewMarker(first[0].key)] + Entries(Kept(first, keep)) + Entries(second), KeyCalls(second, keep)) ==
      [NewMarker(second[0].key)] + [NewMarker(first[0].key)] + Entries(Kept(first, keep)) + Entries(Kept(second, keep))
  {
    var m1 := [NewMarker(first[0].key)];
    var x := Entries(Kept(first, keep));
    KeptOtherKey(first, second, keep);
    OtherKey(m1 + x, second);
    FreshRunEffect(m1 + x, second, [], keep);
    TwoShapes(m1, [NewMarker(second[0].key)], [], x, Entries(second), Entries(Kept(second, keep)));
  }

  /** How the pieces of the store regroup between the two keys. */
  lemma TwoShapes<T>(m1: seq<T>, m2: seq<T>, e1: seq<T>, x: seq<T>, e2: seq<T>, y: seq<T>)
    ensures [] + e1 + e2 == e1 + e2
    ensures m1 + [] + x + e2 == m1 + x + e2
    ensures (m1 + x) + e2 + [] == m1 + x + e2
    ensures m2 + (m1 + x) + y + [] == m2 + m1 + x + y
  {
  }

  /** The store lists no version of the key. */
  predicate OnlyOthers(store: seq<Entry>, key: string) {
    forall i :: 0 <= i < |store| && store[i].Listed? ==> store[i].version.key != key
  }

  /** The first key's marker and kept versions hold none of the second key's versions. */
  lemma KeptOtherKey(first: seq<Version>, second: seq<Version>, keep: nat)
    requires KeyRun(first) && KeyRun(second) && first[0].key != second[0].key
    ensures OnlyOthers([NewMarker(first[0].key)] + Entries(Kept(first, keep)), second[0].key)
  {
    var front := [NewMarker(first[0].key)] + Entries(Kept(first, keep));
    forall i | 0 <= i < |front| && front[i].Listed?
      ensures front[i].version.key != second[0].key
    {
      assert front[i] == Entries(Kept(first, keep))[i - 1];
      assert Kept(first, keep)[i - 1] == first[i - 1];
    }
  }

  /** A key's versions are in no part of the store that holds only other keys and new markers. */
  lemma OtherKey(store: seq<Entry>, run: seq<Version>)
    requires KeyRun(run)
    requires OnlyOthers(store, run[0].key)
    ensures Disjoint(store, run)
  {
    forall j | 0 <= j < |run|
      ensures Untouched(store, run[j].key, run[j].versionId)
    {
      assert run[j].key == run[0].key;
    }
  }

  /**
   * Two fresh keys under Expiration Days 0 with NewerNoncurrentVersions = keep,
   * or with NoncurrentDays 0 (keep = 0): each key is handled on its own, so
   * each ends with its own delete marker and its `keep` newest versions.
   */
  lemma TwoKeysScenario(bucket: string, now: int, view: BucketView, first: seq<Version>, second: seq<Version>,
                        rule: Rule, keep: nat)
    requires FreshKey(now, first) && FreshKey(now, second) && first[0].key != second[0].key
    requires rule.expiration == Some(Expiration(Some(0), false))
    requires
      || (rule.noncurrentVersionExpiration == Some(NoncurrentVersionExpiration(None, Some(keep))))
      || (rule.noncurrentVersionExpiration == Some(NoncurrentVersionExpiration(Some(0), None)) && keep == 0)
    requires Lists(rule, now, view, [first, second])
    ensures
      var r := RunRule(bucket, rule, now, view);
      && r.outcome == Completed
      && ApplyAll(Entries(first) + Entries(second), r.calls) ==
           [NewMarker(second[0].key), NewMarker(first[0].key)]
           + Entries(Kept(first, keep)) + Entries(Kept(second, keep))
  {
    assert Grouped([first, second]);
    Issues(bucket, rule, now, view, [first, second]);
    TwoKeysEffect(now, first, second, rule, keep);
  }

  /** An Expiration block with any Days and the given ExpiredObjectDeleteMarker. */
  function MarkerRule(days: Option<int>, cleanup: bool): Rule {
    Rule("rule1", "Enabled", None, Some(Expiration(days, cleanup)), None, None)
  }

  /**
   * A key whose only version is a delete marker: with ExpiredObjectDeleteMarker
   * the marker is removed and nothing is left; without it the marker stays.
   */
  lemma LoneMarkerScenario(bucket: string, now: int, view: BucketView, marker: Version, days: Option<int>, cleanup: bool)
    requires marker.isLatest && marker.deleteMarker && marker.key != ""
    requires Lists(MarkerRule(days, cleanup), now, view, [[marker]])
    ensures
      var r := RunRule(bucket, MarkerRule(days, cleanup), now, view);
      && r.outcome == Completed
      && ApplyAll(Entries([marker]), r.calls) == if cleanup then [] else Entries([marker])
  {
    var rule := MarkerRule(days, cleanup);
    assert KeyRun([marker]);
    Issues(bucket, rule, now, view, [[marker]]);
    LoneMarkerEffect(now, marker, days, cleanup);
  }

  lemma LoneMarkerEffect(now: int, marker: Version, days: Option<int>, cleanup: bool)
    requires marker.isLatest && marker.deleteMarker && marker.key != ""
    ensures ApplyAll(Entries([marker]), ByKey(MarkerRule(days, cleanup), now, [[marker]])) ==
      if cleanup then [] else Entries([marker])
  {
    var rule := MarkerRule(days, cleanup);
    NoNoncurrentBlock(rule, now, [marker], 0);
    assert ByKey(rule, now, [[marker]]) == RunCalls(rule, now, [marker]) + MarkerCleanup(rule, [marker]) + [];
    if cleanup {
      assert Remove(Entries([marker]), marker.key, marker.versionId) == [];
    }
  }

  // ----- Incomplete multipart uploads -----

  /** An abort for every upload, in listing order. */
  function AbortEach(uploads: seq<MultipartUpload>): seq<Action> {
    seq(|uploads|, i requires 0 <= i < |uploads| => AbortUpload(uploads[i].key, uploads[i].uploadId))
  }

  /** When every upload is old enough, each one is aborted. */
  lemma {:induction false} AllUploadsDue(days: int, now: int, uploads: seq<MultipartUpload>)
    requires forall i :: 0 <= i < |uploads| ==> AgeInDays(now, uploads[i].initiated) >= days
    ensures AbortsFor(days, now, uploads) == AbortEach(uploads)
    decreases |uploads|
  {
    if uploads != [] {
      var init := uploads[..|uploads| - 1];
      AllUploadsDue(days, now, init);
      assert AbortEach(uploads) == AbortEach(init) + [AbortUpload(uploads[|uploads| - 1].key, uploads[|uploads| - 1].uploadId)];
    }
  }

  /** When no upload is old enough, nothing is aborted. */
  lemma {:induction false} NoUploadDue(days: int, now: int, uploads: seq<MultipartUpload>)
    requires forall i :: 0 <= i < |uploads| ==> AgeInDays(now, uploads[i].initiated) < days
    ensures AbortsFor(days, now, uploads) == []
    decreases |uploads|
  {
    if uploads != [] {
      NoUploadDue(days, now, uploads[..|uploads| - 1]);
    }
  }

  function AbortAfter(days: int): Rule {
    Rule("rule1", "Enabled", None, None, None, Some(AbortIncompleteMultipartUpload(Some(days))))
  }

  /**
   * Uploads started less than a day ago, listed on one page: DaysAfterInitiation 0
   * aborts every one of them, DaysAfterInitiation 1 aborts none.
   */
  lemma FreshUploadsScenario(now: int, uploads: seq<MultipartUpload>)
    requires forall i :: 0 <= i < |uploads| ==> 0 <= now - uploads[i].initiated < NanosPerDay
    ensures Sweep(AbortAfter(0), now, [Ok(uploads)]) == (AbortEach(uploads), None)
    ensures Sweep(AbortAfter(1), now, [Ok(uploads)]) == ([], None)
  {
    assert Flatten(OkPrefix([Ok(uploads)])) == uploads by {
      assert OkPrefix([Ok(uploads)]) == [uploads] + OkPrefix<seq<MultipartUpload>>([]);
      FlattenCons(uploads, []);
    }
    assert FirstError([Ok(uploads)]) == FirstError<seq<MultipartUpload>>([]);
    AllUploadsDue(0, now, uploads);
    NoUploadDue(1, now, uploads);
  }
}

=== FILE: versions.dfy ===
/**
 * The version records the engine streams, how one listing page becomes a
 * list of records, and the stable order (key ascending, then newest first)
 * the records are sorted into before the engine reads them.
 */
module Versions {

  /** One object version or delete marker. Timestamps are nanoseconds. */
  datatype Version = Version(key: string, isLatest: bool, lastModified: int, versionId: string, deleteMarker: bool)

  /** A live version entry of a listing page. */
  datatype ObjectVersion = ObjectVersion(key: string, isLatest: bool, lastModified: int, versionId: string)

  /** A delete-marker entry of a listing page. */
  datatype DeleteMarkerEntry = DeleteMarkerEntry(key: string, isLatest: bool, lastModified: int, versionId: string)

  /** One page of the version listing: live versions and delete markers are listed apart. */
  datatype ListObjectVersionsOutput = ListObjectVersionsOutput(versions: seq<ObjectVersion>, deleteMarkers: seq<DeleteMarkerEntry>)

  function FromObjectVersion(o: ObjectVersion): Version {
    Version(o.key, o.isLatest, o.lastModified, o.versionId, false)
  }

  function FromDeleteMarker(m: DeleteMarkerEntry): Version {
    Version(m.key, m.isLatest, m.lastModified, m.versionId, true)
  }

  /** The records of one page, as ToVersions builds them. */
  function VersionsOf(output: ListObjectVersionsOutput): seq<Version> {
    seq(|output.versions|, i requires 0 <= i < |output.versions| => FromObjectVersion(output.versions[i]))
    + seq(|output.deleteMarkers|, j requires 0 <= j < |output.deleteMarkers| => FromDeleteMarker(output.deleteMarkers[j]))
  }

  /**
   * ToVersions: all live versions in listing order, then all delete markers in
   * listing order, with the identifying fields copied and the marker flag set
   * according to the list the entry came from.
   */
  method ToVersions(output: ListObjectVersionsOutput) returns (versions: seq<Version>)
    ensures |versions| == |output.versions| + |output.deleteMarkers|
    ensures forall i :: 0 <= i < |output.versions| ==>
      && versions[i].key == output.versions[i].key
      && versions[i].isLatest == output.versions[i].isLatest
      && versions[i].lastModified == output.versions[i].lastModified
      && versions[i].versionId == output.versions[i].versionId
      && !versions[i].deleteMarker
    ensures forall j :: 0 <= j < |output.deleteMarkers| ==>
      && versions[|output.versions| + j].key == output.deleteMarkers[j].key
      && versions[|output.versions| + j].isLatest == output.deleteMarkers[j].isLatest
      && versions[|output.versions| + j].lastModified == output.deleteMarkers[j].lastModified
      && versions[|output.versions| + j].versionId == output.deleteMarkers[j].versionId
      && versions[|output.versions| + j].deleteMarker
    ensures versions == VersionsOf(output)
  {
    versions := [];
    for i := 0 to |output.versions|
      invariant |versions| == i
      invariant forall k :: 0 <= k < i ==> versions[k] == FromObjectVersion(output.versions[k])
    {
      versions := versions + [FromObjectVersion(output.versions[i])];
    }
    var n := |output.versions|;
    for j := 0 to |output.deleteMarkers|
      invariant |versions| == n + j
      invariant forall k :: 0 <= k < n ==> versions[k] == FromObjectVersion(output.versions[k])
      invariant forall k :: 0 <= k < j ==> versions[n + k] == FromDeleteMarker(output.deleteMarkers[k])
    {
      versions := versions + [FromDeleteMarker(output.deleteMarkers[j])];
    }
    VersionsOfIndex(output);
  }

  /** VersionsOf, entry by entry. */
  lemma VersionsOfIndex(output: ListObjectVersionsOutput)
    ensures |VersionsOf(output)| == |output.versions| + |output.deleteMarkers|
    ensures forall k :: 0 <= k < |output.versions| ==> VersionsOf(output)[k] == FromObjectVersion(output.versions[k])
    ensures forall k :: 0 <= k < |output.deleteMarkers| ==>
      VersionsOf(output)[|output.versions| + k] == FromDeleteMarker(output.deleteMarkers[k])
  {
  }

  // ----- The order -----

  /** Go's `<` on strings: lexicographic, character by character. */
  predicate KeyLess(a: string, b: string) {
    if |a| == 0 then |b| > 0
    else if |b| == 0 then false
    else if a[0] != b[0] then a[0] < b[0]
    else KeyLess(a[1..], b[1..])
  }

  lemma {:induction false} KeyLessIrreflexive(a: string)
    ensures !KeyLess(a, a)
  {
    if |a| > 0 { KeyLessIrreflexive(a[1..]); }
  }

  lemma {:induction false} KeyLessAsymmetric(a: string, b: string)
    ensures KeyLess(a, b) ==> !KeyLess(b, a)
  {
    if |a| > 0 && |b| > 0 && a[0] == b[0] { KeyLessAsymmetric(a[1..], b[1..]); }
  }

  lemma {:induction false} KeyLessTransitive(a: string, b: string, c: string)
    ensures KeyLess(a, b) && KeyLess(b, c) ==> KeyLess(a, c)
  {
    if |a| > 0 && |b| > 0 && |c| > 0 && a[0] == b[0] && b[0] == c[0] {
      KeyLessTransitive(a[1..], b[1..], c[1..]);
    }
  }

  lemma {:induction false} KeyLessTotal(a: string, b: string)
    ensures a == b || KeyLess(a, b) || KeyLess(b, a)
  {
    if |a| > 0 && |b| > 0 && a[0] == b[0] {
      KeyLessTotal(a[1..], b[1..]);
      if a[1..] == b[1..] {
        assert a == [a[0]] + a[1..] && b == [b[0]] + b[1..];
      }
    }
  }

  /** The comparison SortVersions hands to the stable sort: key ascending, then newer first. */
  predicate Before(x: Version, y: Version) {
    if KeyLess(x.key, y.key) then true
    else if KeyLess(y.key, x.key) then false
    else x.lastModified > y.lastModified
  }

  /** Two records the comparison cannot tell apart: same key and same timestamp. */
  predicate Tied(v: Version, key: string, time: int) {
    v.key == key && v.lastModified == time
  }

  lemma BeforeAsymmetric(x: Version, y: Version)
    ensures Before(x, y) ==> !Before(y, x)
  {
    KeyLessAsymmetric(x.key, y.key);
  }

  lemma BeforeNegTransitive(x: Version, y: Version, z: Version)
    ensures !Before(x, y) && !Before(y, z) ==> !Before(x, z)
  {
    KeyLessTotal(x.key, y.key);
    KeyLessTotal(y.key, z.key);
    KeyLessTotal(x.key, z.key);
    KeyLessTransitive(z.key, y.key, x.key);
    KeyLessTransitive(x.key, z.key, y.key);
    KeyLessTransitive(y.key, x.key, z.key);
    KeyLessAsymmetric(x.key, z.key);
    KeyLessIrreflexive(x.key);
  }

  /** Records neither of which comes before the other are tied. */
  lemma BeforeTotal(x: Version, y: Version)
    ensures !Before(x, y) && !Before(y, x) ==> Tied(y, x.key, x.lastModified)
  {
    KeyLessTotal(x.key, y.key);
  }

  lemma BeforeUntied(x: Version, y: Version)
    ensures Before(x, y) ==> !Tied(y, x.key, x.lastModified)
  {
    KeyLessIrreflexive(x.key);
  }

  /** No record is followed by one that the comparison puts before it. */
  predicate Ordered(s: seq<Version>) {
    forall i, j :: 0 <= i < j < |s| ==> !Before(s[j], s[i])
  }

  // ----- The stable sort, as a function -----

  /** Insert x after every record that does not come after it (so after its ties). */
  function Insert(s: seq<Version>, x: Version): (r: seq<Version>)
    ensures |r| == |s| + 1
    ensures multiset(r) == multiset(s) + multiset{x}
  {
    if s == [] then [x]
    else if Before(x, s[|s| - 1]) then
      assert s == s[..|s| - 1] + [s[|s| - 1]];
      Insert(s[..|s| - 1], x) + [s[|s| - 1]]
    else s + [x]
  }

  /** The result of a stable sort under Before: insertion sort, record by record. */
  function SortedVersions(s: seq<Version>): (r: seq<Version>)
    ensures |r| == |s|
    ensures multiset(r) == multiset(s)
  {
    if s == [] then []
    else
      assert s == s[..|s| - 1] + [s[|s| - 1]];
      Insert(SortedVersions(s[..|s| - 1]), s[|s| - 1])
  }

  lemma {:induction false} InsertOrdered(s: seq<Version>, x: Version)
    requires Ordered(s)
    ensures Ordered(Insert(s, x))
  {
    if s != [] {
      var init, last := s[..|s| - 1], s[|s| - 1];
      if Before(x, last) {
        assert s == init + [last];
        assert Ordered(init) by {
          assert forall k :: 0 <= k < |init| ==> init[k] == s[k];
        }
        InsertOrdered(init, x);
        InsertBelow(init, x, last);
        OrderedSnoc(Insert(init, x), last);
        assert Insert(s, x) == Insert(init, x) + [last];
      } else {
        forall i | 0 <= i < |s| ensures !Before(x, s[i]) {
          BeforeNegTransitive(x, last, s[i]);
        }
        OrderedSnoc(s, x);
      }
    }
  }

  /** Appending a record that comes before none of s keeps s ordered. */
  lemma OrderedSnoc(s: seq<Version>, y: Version)
    requires Ordered(s)
    requires forall i :: 0 <= i < |s| ==> !Before(y, s[i])
    ensures Ordered(s + [y])
  {
  }

  /** When x comes before the last record, the last record comes before nothing in the insertion of x into the rest. */
  lemma InsertBelow(init: seq<Version>, x: Version, last: Version)
    requires Ordered(init + [last]) && Before(x, last)
    ensures forall i :: 0 <= i < |Insert(init, x)| ==> !Before(last, Insert(init, x)[i])
  {
    var t := Insert(init, x);
    forall i | 0 <= i < |t| ensures !Before(last, t[i]) {
      assert t[i] in multiset(t);
      if t[i] == x {
        BeforeAsymmetric(x, last);
      } else {
        assert t[i] in multiset(init);
        var k :| 0 <= k < |init| && init[k] == t[i];
        assert (init + [last])[k] == t[i] && (init + [last])[|init|] == last;
      }
    }
  }

  lemma {:induction false} SortedVersionsOrdered(s: seq<Version>)
    ensures Ordered(SortedVersions(s))
  {
    if s != [] {
      SortedVersionsOrdered(s[..|s| - 1]);
      InsertOrdered(SortedVersions(s[..|s| - 1]), s[|s| - 1]);
    }
  }

  /** The records of s tied at (key, time), in their order in s. */
  function Ties(s: seq<Version>, key: string, time: int): seq<Version> {
    if s == [] then []
    else Ties(s[..|s| - 1], key, time) + (if Tied(s[|s| - 1], key, time) then [s[|s| - 1]] else [])
  }

  lemma {:induction false} TiesAppend(a: seq<Version>, b: seq<Version>, key: string, time: int)
    ensures Ties(a + b, key, time) == Ties(a, key, time) + Ties(b, key, time)
  {
    if b != [] {
      var b' := b[..|b| - 1];
      assert (a + b)[..|a + b| - 1] == a + b';
      TiesAppend(a, b', key, time);
    } else {
      assert a + b == a;
    }
  }

  lemma TiesFront(x: Version, s: seq<Version>, key: string, time: int)
    ensures Ties([x] + s, key, time) == (if Tied(x, key, time) then [x] else []) + Ties(s, key, time)
  {
    TiesAppend([x], s, key, time);
    assert [x][..0] == [];
  }

  lemma {:induction false} TiesMember(s: seq<Version>, key: string, time: int, v: Version)
    requires v in Ties(s, key, time)
    ensures v in s && Tied(v, key, time)
  {
    if s != [] {
      if v in Ties(s[..|s| - 1], key, time) {
        TiesMember(s[..|s| - 1], key, time, v);
      }
    }
  }

  lemma {:induction false} InsertTies(s: seq<Version>, x: Version, key: string, time: int)
    ensures Ties(Insert(s, x), key, time) == Ties(s, key, time) + (if Tied(x, key, time) then [x] else [])
  {
    if s == [] {
      assert [x][..0] == [];
    } else {
      var init, last := s[..|s| - 1], s[|s| - 1];
      if Before(x, last) {
        InsertTies(init, x, key, time);
        var t := Insert(init, x);
        assert (t + [last])[..|t|] == t;
        BeforeUntied(x, last);
      } else {
        assert (s + [x])[..|s|] == s;
      }
    }
  }

  /** Stability: within every group of tied records, the sort keeps the input order. */
  lemma {:induction false} SortedVersionsTies(s: seq<Version>, key: string, time: int)
    ensures Ties(SortedVersions(s), key, time) == Ties(s, key, time)
  {
    if s != [] {
      SortedVersionsTies(s[..|s| - 1], key, time);
      InsertTies(SortedVersions(s[..|s| - 1]), s[|s| - 1], key, time);
    }
  }

  /** A record's tied group in a sequence that contains it is not empty. */
  lemma TiesNonEmpty(x: Version, s: seq<Version>)
    ensures Ties([x] + s, x.key, x.lastModified) == [x] + Ties(s, x.key, x.lastModified)
  {
    TiesFront(x, s, x.key, x.lastModified);
  }

  /** A record at the head of r1 is in every sequence whose group for it agrees with r1's. */
  lemma TiesHeadFound(a: Version, r1: seq<Version>, r2: seq<Version>)
    requires r1 != [] && r1[0] == a
    requires Ties(r1, a.key, a.lastModified) == Ties(r2, a.key, a.lastModified)
    ensures a in r2
  {
    assert r1 == [a] + r1[1..];
    TiesNonEmpty(a, r1[1..]);
    assert a in Ties(r2, a.key, a.lastModified);
    TiesMember(r2, a.key, a.lastModified, a);
  }

  lemma TiedHeadsEqual(a: Version, b: Version, s1: seq<Version>, s2: seq<Version>)
    requires Tied(b, a.key, a.lastModified)
    requires Ties([a] + s1, a.key, a.lastModified) == Ties([b] + s2, a.key, a.lastModified)
    ensures a == b
  {
    TiesNonEmpty(a, s1);
    TiesFront(b, s2, a.key, a.lastModified);
    assert ([a] + Ties(s1, a.key, a.lastModified))[0] == ([b] + Ties(s2, a.key, a.lastModified))[0];
  }

  /** In an ordered sequence no member comes before the head. */
  lemma OrderedHeadFirst(r: seq<Version>, x: Version)
    requires r != [] && Ordered(r) && x in r
    ensures !Before(x, r[0])
  {
    var m :| 0 <= m < |r| && r[m] == x;
    if m > 0 {
      assert !Before(r[m], r[0]);
    } else {
      KeyLessIrreflexive(x.key);
    }
  }

  lemma OrderedTiesHead(r1: seq<Version>, r2: seq<Version>)
    requires r1 != [] && r2 != []
    requires Ordered(r1) && Ordered(r2)
    requires forall key, time :: Ties(r1, key, time) == Ties(r2, key, time)
    ensures r1[0] == r2[0]
  {
    var a, b := r1[0], r2[0];
    assert Ties(r1, a.key, a.lastModified) == Ties(r2, a.key, a.lastModified);
    assert Ties(r1, b.key, b.lastModified) == Ties(r2, b.key, b.lastModified);
    TiesHeadFound(a, r1, r2);
    TiesHeadFound(b, r2, r1);
    OrderedHeadFirst(r2, a);
    OrderedHeadFirst(r1, b);
    HeadsMeet(r1, r2);
  }

  /** Heads neither of which comes before the other, with the same tied group, are equal. */
  lemma HeadsMeet(r1: seq<Version>, r2: seq<Version>)
    requires r1 != [] && r2 != []
    requires !Before(r1[0], r2[0]) && !Before(r2[0], r1[0])
    requires Ties(r1, r1[0].key, r1[0].lastModified) == Ties(r2, r1[0].key, r1[0].lastModified)
    ensures r1[0] == r2[0]
  {
    var a, b := r1[0], r2[0];
    BeforeTotal(a, b);
    assert r1 == [a] + r1[1..] && r2 == [b] + r2[1..];
    TiedHeadsEqual(a, b, r1[1..], r2[1..]);
  }

  lemma TiesTail(x: Version, s1: seq<Version>, s2: seq<Version>, key: string, time: int)
    requires Ties([x] + s1, key, time) == Ties([x] + s2, key, time)
    ensures Ties(s1, key, time) == Ties(s2, key, time)
  {
    TiesFront(x, s1, key, time);
    TiesFront(x, s2, key, time);
    var tx := if Tied(x, key, time) then [x] else [];
    assert (tx + Ties(s1, key, time))[|tx|..] == Ties(s1, key, time);
    assert (tx + Ties(s2, key, time))[|tx|..] == Ties(s2, key, time);
  }

  /** An ordered sequence is determined by its groups of tied records. */
  lemma {:induction false} OrderedTiesUnique(r1: seq<Version>, r2: seq<Version>)
    requires Ordered(r1) && Ordered(r2)
    requires forall key, time :: Ties(r1, key, time) == Ties(r2, key, time)
    ensures r1 == r2
    decreases |r1|
  {
    if r1 == [] {
      if r2 != [] {
        assert Ties(r2, r2[0].key, r2[0].lastModified) == Ties(r1, r2[0].key, r2[0].lastModified);
        TiesHeadFound(r2[0], r2, r1);
      }
    } else if r2 == [] {
      assert Ties(r1, r1[0].key, r1[0].lastModified) == Ties(r2, r1[0].key, r1[0].lastModified);
      TiesHeadFound(r1[0], r1, r2);
    } else {
      OrderedTiesHead(r1, r2);
      var x := r1[0];
      assert r1 == [x] + r1[1..] && r2 == [x] + r2[1..];
      forall key, time ensures Ties(r1[1..], key, time) == Ties(r2[1..], key, time) {
        TiesTail(x, r1[1..], r2[1..], key, time);
      }
      OrderedTiesUnique(r1[1..], r2[1..]);
    }
  }

  /** Sorting an already ordered sequence changes nothing. */
  lemma SortedVersionsOfOrdered(s: seq<Version>)
    requires Ordered(s)
    ensures SortedVersions(s) == s
  {
    SortedVersionsOrdered(s);
    forall key, time ensures Ties(SortedVersions(s), key, time) == Ties(s, key, time) {
      SortedVersionsTies(s, key, time);
    }
    OrderedTiesUnique(SortedVersions(s), s);
  }

  /** Two inputs whose tied groups agree sort to the same output. */
  lemma SortedVersionsCanonical(p: seq<Version>, s: seq<Version>)
    requires forall key, time :: Ties(p, key, time) == Ties(s, key, time)
    ensures SortedVersions(p) == SortedVersions(s)
  {
    SortedVersionsOrdered(p);
    SortedVersionsOrdered(s);
    forall key, time ensures Ties(SortedVersions(p), key, time) == Ties(SortedVersions(s), key, time) {
      SortedVersionsTies(p, key, time);
      SortedVersionsTies(s, key, time);
    }
    OrderedTiesUnique(SortedVersions(p), SortedVersions(s));
  }

  /** No two records share both key and timestamp. */
  predicate Untied(s: seq<Version>) {
    forall i, j :: 0 <= i < j < |s| ==> !Tied(s[j], s[i].key, s[i].lastModified)
  }

  lemma {:induction false} TiesMultiset(s: seq<Version>, key: string, time: int, v: Version)
    ensures multiset(Ties(s, key, time))[v] == if Tied(v, key, time) then multiset(s)[v] else 0
  {
    if s != [] {
      TiesMultiset(s[..|s| - 1], key, time, v);
      assert s == s[..|s| - 1] + [s[|s| - 1]];
    }
  }

  lemma {:induction false} UntiedTiesShort(s: seq<Version>, key: string, time: int)
    requires Untied(s)
    ensures |Ties(s, key, time)| <= 1
  {
    if s != [] {
      var init := s[..|s| - 1];
      UntiedTiesShort(init, key, time);
      if Tied(s[|s| - 1], key, time) && Ties(init, key, time) != [] {
        TiesMember(init, key, time, Ties(init, key, time)[0]);
      }
    }
  }

  /**
   * The shuffle property: when no two records share key and timestamp, every
   * permutation of the input sorts to the same output.
   */
  lemma ShuffleInvariant(p: seq<Version>, s: seq<Version>)
    requires multiset(p) == multiset(s)
    requires Untied(s)
    ensures SortedVersions(p) == SortedVersions(s)
  {
    forall key, time ensures Ties(p, key, time) == Ties(s, key, time) {
      ShuffledTies(p, s, key, time);
    }
    SortedVersionsCanonical(p, s);
  }

  /** A permutation of an untied sequence has the same (at most one-element) tied groups. */
  lemma ShuffledTies(p: seq<Version>, s: seq<Version>, key: string, time: int)
    requires multiset(p) == multiset(s)
    requires Untied(s)
    ensures Ties(p, key, time) == Ties(s, key, time)
  {
    TiesPermuted(p, s, key, time);
    UntiedTiesShort(s, key, time);
    ShortPermutation(Ties(p, key, time), Ties(s, key, time));
  }

  /** Permuting the input permutes each tied group. */
  lemma TiesPermuted(p: seq<Version>, s: seq<Version>, key: string, time: int)
    requires multiset(p) == multiset(s)
    ensures multiset(Ties(p, key, time)) == multiset(Ties(s, key, time))
  {
    forall v ensures multiset(Ties(p, key, time))[v] == multiset(Ties(s, key, time))[v] {
      TiesMultiset(p, key, time, v);
      TiesMultiset(s, key, time, v);
    }
  }

  /** A sequence of at most one element is its only permutation. */
  lemma ShortPermutation<T>(t: seq<T>, u: seq<T>)
    requires |u| <= 1 && multiset(t) == multiset(u)
    ensures t == u
  {
    assert |t| == |multiset(t)| == |multiset(u)| == |u|;
    if |u| == 1 {
      assert t[0] in multiset(u);
    }
  }

  // ----- The stable sort, in place -----

  /**
   * Insertion lands x after the records it does not come before: when x comes
   * before every record from j on, and not before the one at j - 1, it is
   * inserted at j.
   */
  lemma {:induction false} InsertAt(sorted: seq<Version>, x: Version, j: nat)
    requires j <= |sorted|
    requires forall k :: j <= k < |sorted| ==> Before(x, sorted[k])
    requires j == 0 || !Before(x, sorted[j - 1])
    ensures Insert(sorted, x) == sorted[..j] + [x] + sorted[j..]
  {
    if j == |sorted| {
      if sorted != [] {
        assert !Before(x, sorted[|sorted| - 1]);
      }
      assert sorted[..j] == sorted && sorted[j..] == [];
    } else {
      var init := sorted[..|sorted| - 1];
      assert Before(x, sorted[|sorted| - 1]);
      assert forall k :: j <= k < |init| ==> Before(x, init[k]) by {
        assert forall k :: 0 <= k < |init| ==> init[k] == sorted[k];
      }
      InsertAt(init, x, j);
      InsertShifted(sorted, x, j);
    }
  }

  /** The inductive step of InsertAt: x moves past the last record. */
  lemma InsertShifted(sorted: seq<Version>, x: Version, j: nat)
    requires j < |sorted| && Before(x, sorted[|sorted| - 1])
    requires var init := sorted[..|sorted| - 1]; Insert(init, x) == init[..j] + [x] + init[j..]
    ensures Insert(sorted, x) == sorted[..j] + [x] + sorted[j..]
  {
    var init, last := sorted[..|sorted| - 1], sorted[|sorted| - 1];
    assert Insert(sorted, x) == Insert(init, x) + [last];
    assert init[..j] == sorted[..j];
    assert sorted[j..] == init[j..] + [last];
    AppendLast(sorted[..j] + [x], init[j..], last);
  }

  lemma AppendLast<T>(p: seq<T>, q: seq<T>, last: T)
    ensures (p + q) + [last] == p + (q + [last])
  {
  }

  /** The array layout after the shift and the final write is the insertion. */
  lemma InsertPlaced(sorted: seq<Version>, x: Version, j: nat, t: seq<Version>)
    requires j <= |sorted| && |t| == |sorted| + 1
    requires forall k :: 0 <= k < j ==> t[k] == sorted[k]
    requires t[j] == x
    requires forall k :: j < k <= |sorted| ==> t[k] == sorted[k - 1]
    ensures t == sorted[..j] + [x] + sorted[j..]
  {
  }

  /**
   * The shifting loop of one insertion step: while x comes before a[j - 1],
   * move that record up one slot. Returns the slot left free for x.
   */
  method ShiftUp(a: array<Version>, i: int, x: Version, ghost sorted: seq<Version>) returns (j: int)
    requires 0 <= i < a.Length && sorted == a[..i]
    modifies a
    ensures 0 <= j <= i
    ensures forall k :: 0 <= k < j ==> a[k] == sorted[k]
    ensures forall k :: j < k <= i ==> a[k] == sorted[k - 1]
    ensures forall k :: i < k < a.Length ==> a[k] == old(a[k])
    ensures forall k :: j <= k < i ==> Before(x, sorted[k])
    ensures j == 0 || !Before(x, sorted[j - 1])
  {
    j := i;
    while j > 0 && Before(x, a[j - 1])
      invariant 0 <= j <= i
      invariant forall k :: 0 <= k < j ==> a[k] == sorted[k]
      invariant forall k :: j < k <= i ==> a[k] == sorted[k - 1]
      invariant forall k :: i < k < a.Length ==> a[k] == old(a[k])
      invariant forall k :: j <= k < i ==> Before(x, sorted[k])
    {
      a[j] := a[j - 1];
      j := j - 1;
    }
  }

  /** One insertion step: a[..i] is sorted; move a[i] back past the records it comes before. */
  method InsertLast(a: array<Version>, i: int)
    requires 0 <= i < a.Length
    modifies a
    ensures a[..i + 1] == Insert(old(a[..i]), old(a[i]))
    ensures forall k :: i < k < a.Length ==> a[k] == old(a[k])
  {
    ghost var sorted := a[..i];
    var x := a[i];
    var j := ShiftUp(a, i, x, sorted);
    a[j] := x;
    InsertAt(sorted, x, j);
    InsertPlaced(sorted, x, j, a[..i + 1]);
  }

  /** The sort of a prefix one longer: the next record inserted into the sorted prefix. */
  lemma SortedVersionsSnoc(input: seq<Version>, i: nat)
    requires i < |input|
    ensures SortedVersions(input[..i + 1]) == Insert(SortedVersions(input[..i]), input[i])
  {
    assert input[..i + 1][..i] == input[..i];
  }

  /** SortVersions: sorts the caller's array in place, stably, by key and then newest first. */
  method SortVersions(a: array<Version>)
    modifies a
    ensures a[..] == SortedVersions(old(a[..]))
  {
    ghost var input := a[..];
    var i := 0;
    while i < a.Length
      invariant 0 <= i <= a.Length
      invariant a[..i] == SortedVersions(input[..i])
      invariant forall k :: i <= k < a.Length ==> a[k] == input[k]
    {
      InsertLast(a, i);
      SortedVersionsSnoc(input, i);
      i := i + 1;
    }
    assert a[..] == a[..a.Length];
    assert input == input[..a.Length];
  }

  // ----- The sort tests -----

  /** A version as the sort tests build it: no version ID, not a delete marker. */
  function TestVersion(key: string, isLatest: bool, time: int): Version {
    Version(key, isLatest, time, "", false)
  }

  /** Three versions of key1 at t1 < t2 < t3, in any order, sort newest first. */
  lemma SortByDate(p: seq<Version>, t1: int, t2: int, t3: int)
    requires t1 < t2 < t3
    requires multiset(p) ==
      multiset([TestVersion("key1", false, t3), TestVersion("key1", false, t2), TestVersion("key1", true, t1)])
    ensures SortedVersions(p) ==
      [TestVersion("key1", false, t3), TestVersion("key1", false, t2), TestVersion("key1", true, t1)]
  {
    var e := [TestVersion("key1", false, t3), TestVersion("key1", false, t2), TestVersion("key1", true, t1)];
    KeyLessIrreflexive("key1");
    assert Ordered(e);
    assert Untied(e);
    ShuffleInvariant(p, e);
    SortedVersionsOfOrdered(e);
  }

  /** Three versions each of key1 and key2, in any order: key1's first, each key newest first. */
  lemma SortByDateAndNames(p: seq<Version>, t1: int, t2: int, t3: int)
    requires t1 < t2 < t3
    requires multiset(p) == multiset([
      TestVersion("key1", false, t3), TestVersion("key1", false, t2), TestVersion("key1", true, t1),
      TestVersion("key2", false, t3), TestVersion("key2", false, t2), TestVersion("key2", true, t1)])
    ensures SortedVersions(p) == [
      TestVersion("key1", false, t3), TestVersion("key1", false, t2), TestVersion("key1", true, t1),
      TestVersion("key2", false, t3), TestVersion("key2", false, t2), TestVersion("key2", true, t1)]
  {
    var e := [
      TestVersion("key1", false, t3), TestVersion("key1", false, t2), TestVersion("key1", true, t1),
      TestVersion("key2", false, t3), TestVersion("key2", false, t2), TestVersion("key2", true, t1)];
    TwoKeysOrdered(e, t1, t2, t3);
    ShuffleInvariant(p, e);
    SortedVersionsOfOrdered(e);
  }

  lemma TwoKeysOrdered(e: seq<Version>, t1: int, t2: int, t3: int)
    requires t1 < t2 < t3
    requires e == [
      TestVersion("key1", false, t3), TestVersion("key1", false, t2), TestVersion("key1", true, t1),
      TestVersion("key2", false, t3), TestVersion("key2", false, t2), TestVersion("key2", true, t1)]
    ensures Ordered(e) && Untied(e)
  {
    KeyLessIrreflexive("key1");
    KeyLessIrreflexive("key2");
    assert KeyLess("key1", "key2") && !KeyLess("key2", "key1");
    forall i, j | 0 <= i < j < |e|
      ensures !Before(e[j], e[i]) && !Tied(e[j], e[i].key, e[i].lastModified)
    {
      assert e[i].key == (if i < 3 then "key1" else "key2");
      assert e[j].key == (if j < 3 then "key1" else "key2");
    }
  }
}

=== FILE: wrappers.dfy ===
/** Optional values and fallible results shared by the configuration and the engine. */
module Wrappers {

  /** A value that may be absent: the model of a Go field that may be nil. */
  datatype Option<+T> = None | Some(value: T)

  /** The outcome of a store call that returns a value or an error. */
  datatype Result<+T> = Ok(value: T) | Err(error: string)
}
